=== FILE: README.md ===
# Back-testing trader, modelled in Dafny

This project models `BackTestTrader`, the back-testing trader of the chanlun
project (src/chanlun/backtesting/backtest_trader.py). The trader keeps a cash
balance, a fee total, a dictionary of positions keyed by open id, a per-code
order log, an archive of finished positions, per-category win/loss
statistics and a buffer of deferred opens. It offers these operations:

- `execute`: one buy or sell against a position;
- `open_buy`, `open_sell`, `close_buy`, `close_sell`: the cash routines that size and price a fill;
- `run`: the strategy's close hook on the positions of one instrument, then its open hook;
- `run_buffer_opts`: execute the deferred opens;
- `end`: clear out every position;
- `update_position_record` and `position_record`: mark positions to the market;
- `hold_positions` and `position_codes`: queries.

The model has two layers.

- Value-level definitions over a `Book` record (the trader's fields) say what
  each operation does. Lemmas prove its properties.
- The class `Trader.BackTestTrader` holds the same fields and updates them in
  place.
  - Its loop methods (`Run`, `RunBufferOpts`, `End`, `UpdatePositionRecord`)
    are proved to leave exactly the state the value-level definitions give.
  - Every call of `execute` inside a loop goes through the class's own
    `Execute` method.

The modules:

| file | module | models |
|---|---|---|
| types.dfy | Types | positions, operations, orders, statistics, the book, the initial state |
| sizing.dfy | Sizing | the cash routines `open_buy`/`open_sell`/`close_buy`/`close_sell` |
| ledger.dfy | Ledger | `hold_positions`, `position_codes`, the pruning at the end of `run`, the state invariant |
| engine.dfy | Engine | `execute` |
| engine_lemmas.dfy | EngineLemmas | what `execute` guarantees |
| orchestrator.dfy | Orchestrator | `run`, `run_buffer_opts`, `end` over an abstract `execute` |
| valuation.dfy | Valuation | `position_record`, `update_position_record` |
| trader.dfy | Trader | the trader object and its methods |

## How the model represents the source

- **Dictionary order.** The iteration order of the positions dictionary is an
  explicit key sequence `order`, with no duplicates and the same keys as the
  map.
  - Loops iterate a snapshot of it.
  - Keys are never removed while a loop runs, so every listed key is present.
- **The strategy.** It is a value with two function fields, the close hook
  and the open hook, plus the optional set of allowed close-transaction ids.
  - A close hook that returns `False`, `None` or a single operation is
    modelled as the empty list or a one-element list.
- **Prices and time are parameters.**
  - The latest bar of the traded instrument is a `Bar` (high, low, close).
  - `get_price` is a function `quote` from instrument to bar.
  - The current time is a `Clock` (an instant and a day). Outside signal mode
    the source reads the wall clock (`datetime.datetime.now()` at
    backtest_trader.py:255-256), so in the funded modes the same-day ban, the
    `begin_run_dt` gate and the record keys depend on real time. The model
    takes whatever instant the caller supplies.
  - The `begin_run_dt` gate compares instants.
  - The formatted record keys of `update_position_record` are the instant itself.
- **`execute` inside the loops.** The loop definitions of `run`,
  `run_buffer_opts` and `end` take `execute` as a function value. It is
  instantiated with the real one, `Orchestrator.Exec`.
  - The facts the loops need about it (`Framed`: what one call leaves alone;
    `KeepsInv`: it keeps the invariant) are proved once, in `ExecLawful`.
- **Preconditions of `execute`.** `Engine.ExecPre` asks three things of a
  call:
  - a positive fraction;
  - a positive close price for a buy;
  - a target position for any operation that reaches a close branch.

  Only some of the excluded inputs make the source raise:
  - a close with fraction 0 divides by zero when it computes its profit
    rate (backtest_trader.py:773 for a short, :865 for a long);
  - a buy at close price 0 divides by zero when it sizes the fill;
  - a close branch without a position dereferences `None`.

  The other excluded inputs run through without an error:
  - A buy with fraction 0 is clamped to 0 (:645, :696) and fills amount 0
    (:493-496, :503-512 when the cash is not negative). `execute` then
    records its key with rate 0, appends an open record, logs an order of
    amount 0 and returns True (:651-680). The invariant does not exclude
    it. It is excluded only because `OpOk` is one positivity condition
    shared by buys and closes, and a close needs it. The model still covers
    the same zero-amount fill, when a positive fraction is clamped to 0 on
    a position that is already full.
  - A negative fraction and a negative close price are excluded because the
    invariant depends on them (`0 <= now_pos_rate <= 1` and a non-negative
    amount on every position).

  "## Left out" lists what the source does with each.
  `Orchestrator.StrategyOk` states the same conditions of the strategy's
  operations.
- **The invariant `Ledger.Inv`** states:
  - `0 <= now_pos_rate <= 1`, and non-negative amount and balance, on every position;
  - a price on every position that has a side;
  - statistics for every category;
  - that `order` indexes the positions.

## Model

| member | source | states |
|---|---|---|
| Trader.BackTestTrader.constructor | src/chanlun/backtesting/backtest_trader.py:23-167 | a new trader has cash only in trade mode, no fees, no positions, empty logs and buffer, zeroed statistics for every category, and satisfies the invariant |
| Ledger.InitialInv | src/chanlun/backtesting/backtest_trader.py:23-167 | the initial state satisfies the invariant, statistics included for all eighteen categories |
| Sizing.Portion | src/chanlun/backtesting/backtest_trader.py:470 | the held part `balance * rate` is non-negative, positive for positive inputs, and at most the balance for a fraction in [0, 1] |
| Sizing.SignalFill | src/chanlun/backtesting/backtest_trader.py:492-496 | a signal-mode open fills at the close, for a notional of 100000 × 0.99 × min(1, fraction) |
| Sizing.Open | src/chanlun/backtesting/backtest_trader.py:491-555 | signal mode always fills the fixed notional and leaves cash and fees alone. Funded modes fill only with a free slot and enough cash, and charge the notional plus the fee to cash and the fee to the fee total. Without a quantity the notional is the slot budget |
| Ledger.HoldPositions | src/chanlun/backtesting/backtest_trader.py:484-488 | the result holds exactly the positions with money, each taken from the dictionary |
| Ledger.HoldFollowsLiveOrder | src/chanlun/backtesting/backtest_trader.py:484-488 | the result lists, one for one and in the same order, the positions of the keys with money that pruning keeps; so `len(hold_positions())` is the number of such keys and the list follows dictionary order |
| Ledger.LiveCountIsHeld | src/chanlun/backtesting/backtest_trader.py:498-504 | the live count the open-slot check uses equals `len(hold_positions())` |
| Ledger.PositionCodes | src/chanlun/backtesting/backtest_trader.py:475-482 | an instrument is listed exactly when some position with money belongs to it |
| Ledger.LiveOfCode | src/chanlun/backtesting/backtest_trader.py:292-296 | the list given to the open hook holds exactly the positions with money of the instrument |
| Ledger.LiveOfCodeKeepsOrder | src/chanlun/backtesting/backtest_trader.py:292-296 | that list is picked from the dictionary at strictly increasing places: dictionary order, one entry per key |
| Ledger.LiveOrder | src/chanlun/backtesting/backtest_trader.py:311-313 | the pruned key order keeps exactly the keys with money, without duplicates |
| Ledger.LiveOrderKeepsOrder | src/chanlun/backtesting/backtest_trader.py:311-313 | the pruned key order is a subsequence of the old one, so the keys with money keep their dictionary order |
| Ledger.LiveMap | src/chanlun/backtesting/backtest_trader.py:311-313 | the pruned dictionary holds exactly the positions with money, unchanged |
| Ledger.Prune | src/chanlun/backtesting/backtest_trader.py:311-313 | after pruning every position has money and every position with money survives unchanged |
| Ledger.PruneInv | src/chanlun/backtesting/backtest_trader.py:311-313 | pruning keeps the invariant |
| Ledger.Append | src/chanlun/backtesting/backtest_trader.py:931-946 | appending under a code adds one entry to that code's list, creating it if needed, and leaves every other code's list alone |
| Engine.Classify | src/chanlun/backtesting/backtest_trader.py:912-918 | a finished trade adds one to exactly one counter, to the win counter exactly when the profit is positive, and adds the profit's magnitude to the matching balance, leaving the other counter and balance as they were |
| Engine.Settled | src/chanlun/backtesting/backtest_trader.py:881-929 | settling a close of at most the held fraction keeps the position invariant |
| EngineLemmas.OpenRefused | src/chanlun/backtesting/backtest_trader.py:642-650 | an open whose key is already recorded on its position is refused, and every refused open changes nothing |
| EngineLemmas.OpenEffects | src/chanlun/backtesting/backtest_trader.py:652-656 | a filled open logs one order of its side, sets the position's price to the fill price and adds the fill to amount and balance |
| EngineLemmas.OpenRecords | src/chanlun/backtesting/backtest_trader.py:645-683 | a filled open raises the fraction by the request clamped to what is missing (so it stays at most 1), records its key and open record, and sets the open date and time only once |
| EngineLemmas.OpenFunds | src/chanlun/backtesting/backtest_trader.py:491-555 | signal-mode opens fill exactly when the key is fresh and leave cash and fees alone. Funded opens fill exactly when the key is fresh, a slot is free and the budget is within the cash, and then pay notional plus fee |
| EngineLemmas.OpenFrame | src/chanlun/backtesting/backtest_trader.py:640-738 | an open replaces at most its own position, keeps the position invariant, the key index and the buffer |
| EngineLemmas.SettleFacts | src/chanlun/backtesting/backtest_trader.py:766-772 | the close computation: clamped fraction, fill, round-trip fee on the sale, profit with the side's sign, and whether the close ends the position |
| EngineLemmas.CloseFrame | src/chanlun/backtesting/backtest_trader.py:741-929 | a close replaces at most its own position, keeps the position invariant, the key index and the buffer |
| EngineLemmas.CloseOutcome | src/chanlun/backtesting/backtest_trader.py:741-765 | a close is refused, changing nothing, exactly when one of its rejections holds: a used close key, a recorded close-transaction id, the same-day ban, or (short side only) a fraction already at zero |
| EngineLemmas.CloseOrder | src/chanlun/backtesting/backtest_trader.py:849-860 | a filled close logs one order of its side, with a positive fraction clamped to what is held and to the request, for that part of the amount, at the stop price if set and otherwise at the close |
| EngineLemmas.CloseSettlement | src/chanlun/backtesting/backtest_trader.py:881-929 | a filled close always writes the close record and the close-transaction snapshot with the realised profit; only the clearing id `clear` adds that profit, lowers the fraction by the closed part and records the close key. Long profit is sale − held notional − twice the fee; short profit is held notional − sale − twice the fee |
| EngineLemmas.CloseCashSignal | src/chanlun/backtesting/backtest_trader.py:558-600 | in signal mode a close adds the price difference on the closed amount to cash with no fee; the clearing id still adds the round-trip fee to the fee total |
| EngineLemmas.CloseCashFunded | src/chanlun/backtesting/backtest_trader.py:558-600 | in funded modes a long close adds the sale less its fee; a short close returns margin plus profit less the fee. The fee total grows by that fee, and the clearing id adds the round-trip fee on top |
| EngineLemmas.TerminalClose | src/chanlun/backtesting/backtest_trader.py:902-927 | a close with the clearing id that covers the whole held fraction zeroes balance and fraction, updates exactly the operation category's statistics, archives a copy carrying the balance, and records the final profit rate |
| EngineLemmas.PartialClose | src/chanlun/backtesting/backtest_trader.py:902-927 | a filled close that is partial or carries another id leaves statistics and archive alone, and the position keeps its balance and a positive fraction |
| EngineLemmas.EffectiveSelects | src/chanlun/backtesting/backtest_trader.py:614-615 | forcing the close id to `clear` in the funded modes does not change which branch an operation selects |
| EngineLemmas.DispatchExit | src/chanlun/backtesting/backtest_trader.py:617-631 | a dead target, a category outside `allow_mmds`, or a buy on a position already at full fraction reports success and changes nothing |
| EngineLemmas.DispatchBuy | src/chanlun/backtesting/backtest_trader.py:626-738 | a buy first ensures its position exists, then runs the open branch of its side, or fails leaving only the ensured position |
| EngineLemmas.DispatchSell | src/chanlun/backtesting/backtest_trader.py:741-929 | a sell runs the close branch of its side on its target, or fails and changes nothing |
| EngineLemmas.ExecuteInv | src/chanlun/backtesting/backtest_trader.py:610-950 | execute keeps the invariant, only adds keys, leaves the buffer alone, and a sell touches only its target |
| EngineLemmas.ExecuteOrderLog | src/chanlun/backtesting/backtest_trader.py:931-950 | an order is appended under the code exactly when a branch filled; the result is true exactly for an early exit or a fill |
| EngineLemmas.SameDayBan | src/chanlun/backtesting/backtest_trader.py:850-854 | for stocks, a close on the day its position opened is refused, and on any other day the ban does not refuse it |
| EngineLemmas.OpenReplay | src/chanlun/backtesting/backtest_trader.py:642-669 | once an open filled, its key is recorded on its position |
| EngineLemmas.CloseReplay | src/chanlun/backtesting/backtest_trader.py:841-844 | once a close filled, its close-transaction id is recorded, so the same close is refused |
| EngineLemmas.BuyWithUsedKey | src/chanlun/backtesting/backtest_trader.py:642-643 | a buy whose key is already recorded on its position changes nothing |
| EngineLemmas.SellWithUsedCloseId | src/chanlun/backtesting/backtest_trader.py:843-844 | a sell whose close-transaction id is already recorded on its target changes nothing |
| EngineLemmas.FundedCloseRecorded | src/chanlun/backtesting/backtest_trader.py:614-615 | outside signal mode, a sell that filled leaves the id `clear` recorded on its target |
| EngineLemmas.FundedOneClose | src/chanlun/backtesting/backtest_trader.py:614-615 | outside signal mode, once one sell has filled against a position, every later sell against it changes nothing, whatever its key, fraction or category |
| EngineLemmas.ReplayIsNoOp | src/chanlun/backtesting/backtest_trader.py:610-950 | once an operation has filled (logged an order), executing it again against the state it produced changes nothing |
| Orchestrator.ExecLawful | src/chanlun/backtesting/backtest_trader.py:610-950 | execute is framed (only adds keys, keeps the buffer; a sell keeps the keys, their order and every position but its target) and keeps the invariant |
| Orchestrator.Coded | src/chanlun/backtesting/backtest_trader.py:282-285 | every operation is kept, in order, with its instrument overwritten by the run's code |
| Orchestrator.Run | src/chanlun/backtesting/backtest_trader.py:261-315 | before the start instant run changes nothing; otherwise every position left has money |
| Orchestrator.RunFilterDefers | src/chanlun/backtesting/backtest_trader.py:302-306 | in filter mode run changes cash, fees, orders, archive and statistics only through its closes, and appends the opens to the buffer in order |
| Orchestrator.RunKeepsBuffer | src/chanlun/backtesting/backtest_trader.py:269-308 | outside filter mode run leaves the buffer alone |
| Orchestrator.CloseLoopStaysOnCode | src/chanlun/backtesting/backtest_trader.py:270-289 | when the close hook issues only sells, the close loop leaves every position of other instruments unchanged |
| Orchestrator.RunInv | src/chanlun/backtesting/backtest_trader.py:261-315 | run keeps the invariant |
| Orchestrator.RunBufferOpts | src/chanlun/backtesting/backtest_trader.py:317-323 | the buffer is empty afterwards |
| Orchestrator.DrainInOrder | src/chanlun/backtesting/backtest_trader.py:319-320 | working through a concatenation is working through its parts in turn: the buffer is executed strictly in order |
| Orchestrator.RunBufferOptsInv | src/chanlun/backtesting/backtest_trader.py:317-323 | run_buffer_opts keeps the invariant |
| Orchestrator.ExitPlan | src/chanlun/backtesting/backtest_trader.py:326-340 | the plan holds one exit operation built from each position with balance > 0, each against its own key, and nothing else |
| Orchestrator.ExitPlanKeepsOrder | src/chanlun/backtesting/backtest_trader.py:327-328 | the plan's targets are picked from the key order at strictly increasing places: dictionary order, one step per key |
| Orchestrator.EndIsPlanned | src/chanlun/backtesting/backtest_trader.py:326-340 | end executes exactly the plan made from the positions at its start, in dictionary order, each sell against its position |
| Orchestrator.EndInv | src/chanlun/backtesting/backtest_trader.py:326-340 | end keeps the invariant |
| Valuation.PositionRecord | src/chanlun/backtesting/backtest_trader.py:382-473 | marking changes only the three rate fields, never lowers the best rate or raises the worst, reports the held notional `balance * now_pos_rate`, and leaves a position without a side alone with no profit |
| Valuation.MoveRateMonotone | src/chanlun/backtesting/backtest_trader.py:393-427 | a larger favourable price move never gives a smaller profit rate |
| Valuation.RateWithinExtremes | src/chanlun/backtesting/backtest_trader.py:393-463 | when the bar's close lies within its range, the recorded rate lies between the worst and the best rate seen, for both sides |
| Valuation.RecordedProfit | src/chanlun/backtesting/backtest_trader.py:418-429 | the reported profit is the favourable move on the held part plus the realised profit |
| Valuation.MarkAll | src/chanlun/backtesting/backtest_trader.py:348-356 | the first loop keeps the keys, changes only rates, and never lowers a best rate or raises a worst rate |
| Valuation.MarkAllSums | src/chanlun/backtesting/backtest_trader.py:348-356 | the first loop's totals are the sums of floating profit and held notional over the positions with money |
| Valuation.CodeValuesSum | src/chanlun/backtesting/backtest_trader.py:361-375 | the per-instrument table lists exactly the instruments with a position with money; each entry is the signed value of that instrument's positions (positive for buy categories, negative otherwise) |
| Valuation.UpdateRecords | src/chanlun/backtesting/backtest_trader.py:342-380 | the recorded floating profit is the sum of floating profits. The recorded equity is cash + held notional + floating profit. The table's cash entry is the cash. Marking changes only rates, keeping best and worst monotone; nothing else changes |
| Valuation.UpdateKeepsInv | src/chanlun/backtesting/backtest_trader.py:342-380 | update_position_record keeps the invariant |
| Valuation.UpdateCodeValues | src/chanlun/backtesting/backtest_trader.py:360-376 | each instrument entry of the recorded table other than the cash key is the signed value of its positions with money |
| Trader.BackTestTrader.Execute | src/chanlun/backtesting/backtest_trader.py:610-950 | the new state and result are those of execute; the invariant holds, keys are only added and the buffer is kept |
| Trader.BackTestTrader.CloseWith | src/chanlun/backtesting/backtest_trader.py:284-289 | the close hook's operations for one position are executed in order, skipping ids the strategy does not allow |
| Trader.BackTestTrader.CloseAll | src/chanlun/backtesting/backtest_trader.py:270-289 | the close loop over the key snapshot leaves the state the close-loop definition gives, and keeps the invariant |
| Trader.BackTestTrader.BufferOpens | src/chanlun/backtesting/backtest_trader.py:302-306 | the buffer gains the opens, coded and in order; the invariant holds |
| Trader.BackTestTrader.ExecuteOpens | src/chanlun/backtesting/backtest_trader.py:302-308 | each open is executed without a target, in order; the invariant holds |
| Trader.BackTestTrader.Run | src/chanlun/backtesting/backtest_trader.py:261-315 | the new state is that of `Orchestrator.Run` with the real execute; the invariant holds |
| Trader.BackTestTrader.RunBufferOpts | src/chanlun/backtesting/backtest_trader.py:317-323 | the new state is that of `Orchestrator.RunBufferOpts`; the invariant holds |
| Trader.BackTestTrader.End | src/chanlun/backtesting/backtest_trader.py:326-340 | the new state is that of `Orchestrator.End`; the invariant holds |
| Trader.BackTestTrader.MarkPositions | src/chanlun/backtesting/backtest_trader.py:348-356 | the loop leaves the marked positions and the totals `Valuation.MarkAll` gives |
| Trader.BackTestTrader.MarkOne | src/chanlun/backtesting/backtest_trader.py:382-473 | position_record updates the one position in place to its marked copy |
| Trader.BackTestTrader.CodeBalances | src/chanlun/backtesting/backtest_trader.py:361-375 | the second loop builds the table `Valuation.CodeValues` gives, changing nothing |
| Trader.BackTestTrader.UpdatePositionRecord | src/chanlun/backtesting/backtest_trader.py:342-380 | the new state is that of `Valuation.UpdatePositionRecord`; the invariant holds |

## Left out

- Rounding: `round(..., 4)` on amounts and rates and `round(..., 2)` on profit rates. The model computes exact rationals.
- Logging (`_print_log`, `log_history`) and the time profiling in `add_times`. Neither affects the state the model covers.
- Persistence: `save_to_pkl` and `load_from_pkl`. Also the drawing helper `order_draw_tv_mark`.
- The market-data object and the strategy object are not part of this model. Bars, the clock and the strategy's hooks are parameters.
- Categories: the model's category is a closed enumeration of the eighteen keys of the statistics table. The source takes any category string. It dispatches on substring tests (`"buy" in opt_mmd` and the like, at backtest_trader.py:640, :691 and :741). It fails only when a terminal close indexes `results[opt_mmd]` with an unknown key (:818 and :913). Unknown categories are not modelled.
- Date formatting: the record keys of `update_position_record` are instants, and the open date is a day number.
- A close hook that buys a fresh open id inside `run`'s first loop resizes the dictionary while Python iterates it, which raises `RuntimeError`. The model iterates a snapshot of the keys instead.
- Operation defaults: `end` builds its operations from the `Operation` class, which is not part of this model. `Trader.BackTestTrader.End` takes a `blank` operation holding the remaining fields, with a positive fraction.
- Position defaults: the `POSITION` class is not part of this model. A new position is the configured template `blank`, required to be empty, with its code, category and open id set.
- The caller-supplied quantity of `open_buy`/`open_sell` is never passed by `execute`. `Sizing.Open` models it, and `execute` always passes none.
- Engine.Execute: requires a positive fraction (`OpOk`) and, for a buy, a positive close. The source accepts a negative fraction without an error. A signal-mode buy then fills a negative amount. A funded buy is refused by the `amount < 0` check. A close then keeps the negative fraction through the clamp, books a negative held notional, and raises `now_pos_rate` instead of lowering it. A buy at a negative close fills a negative amount in signal mode. None of these paths is modelled: each would break `0 <= now_pos_rate <= 1` or the non-negative amount that the invariant keeps. A buy with fraction 0 does not raise either: it fills amount 0, records its key with rate 0 and an open record, logs a zero-amount order and returns True (:645, :651-680). It is not modelled as a direct input because `OpOk` is one condition for buys and closes; the same zero-amount fill is modelled when the clamp at :645/:696 reaches 0 on a full position.
- Trader.BackTestTrader.Execute: has the same preconditions as `Engine.Execute`, for the same reasons. The negative-fraction, negative-price and zero-fraction-buy paths of the source are not modelled.
- Orchestrator.Run: the loops assume the strategy issues positive fractions and opens that never reach a close branch without a position (`StrategyOk`). On a close with fraction 0 (:773, :865) or a close branch without a position the source raises. On a buy with fraction 0 or a negative fraction it continues, along the paths listed for `Engine.Execute`.
- Operations are values in the model. The source mutates the caller's `Operation` objects: outside signal mode `execute` sets `close_uid` to "clear" (:614-615), clamps `pos_rate` in place (:645, :696, :751, :844), and `run` overwrites `code` (:285, :303). This is visible only when a strategy hands back the same object again; the `allow_close_uid` check at :286-287 would then see "clear". The model does not capture this aliasing.
- Trader.BackTestTrader.Run: requires a positive close for the bar, as `execute` does for buys.
- Valuation.PositionRecord: requires a positive entry price wherever there is a side, which the invariant provides. A zero price divides by zero in the source.

Where the repository's documentation and the code differ, the model follows the code:

- `close_buy` in the funded modes credits the sale less a one-sided fee. The profit booked on the position subtracts twice the fee, and the clearing id adds that round-trip fee to the fee total on top of the routine's fee.
- `end` goes through `execute`, so the same-day ban of stock mode also applies to its clearing sells.
- Outside signal mode every close id is forced to `"clear"`. So after one partial close, every further close on that position is refused by the close-transaction check, including the clearing sell of `end` (`EngineLemmas.FundedOneClose`).

=== FILE: engine.dfy ===
/**
 * The execution engine: `execute` applies one operation to the book.
 * It is a guarded state machine with four branches (open long, open
 * short, close short, close long); every rejection is reported by the
 * boolean result, never by an exception.
 */
module Engine {
  import opened Wrappers
  import opened Types
  import opened Sizing
  import opened Ledger

  datatype Outcome = Outcome(book: Book, ok: bool)

  /** In the funded modes every close is forced to the terminal id. */
  function Effective(c: Config, op: Operation): Operation {
    if c.mode != Signal then op.(closeUid := CLEAR) else op
  }

  /** What the callers of `execute` guarantee. */
  predicate ExecPre(c: Config, b: Book, op: Operation, target: Option<Uid>, bar: Bar) {
    && (target.Some? ==> target.value in b.positions)
    && OpOk(op)
    && (op.action == Buy ==> bar.close > 0.0)
    && (target.None? ==> SafeWithoutTarget(c, op))
  }

  /** The three exits that report success and change nothing. */
  predicate EarlyExit(c: Config, b: Book, op: Operation, target: Option<Uid>)
    requires target.Some? ==> target.value in b.positions
  {
    || (target.Some? && Dead(b.positions[target.value]))
    || !Allowed(c, op.mmd)
    || (op.action == Buy && op.openUid in b.positions && b.positions[op.openUid].nowPosRate >= 1.0)
  }

  /** The open branch an operation selects, if any. */
  function OpenSide(c: Config, op: Operation): Option<Side> {
    if op.action != Buy then None
    else if op.mmd.IsBuy() then Some(Long)
    else if c.isFutures then Some(Short)
    else None
  }

  /** The close branch an operation selects, if any. */
  function CloseSide(c: Config, op: Operation): Option<Side> {
    if op.action != Sell then None
    else if op.mmd.IsBuy() then Some(Long)
    else if c.isFutures then Some(Short)
    else None
  }

  /** A buy on an unknown open id first creates an empty position. */
  function EnsurePosition(c: Config, b: Book, code: Code, op: Operation): Book {
    if op.openUid in b.positions then b
    else b.(positions := b.positions[op.openUid := NewPosition(c, code, op.mmd, op.openUid)],
            order := b.order + [op.openUid])
  }

  /** execute(code, opt, pos): `target` is the open id of `pos`, when one is given. */
  function Execute(c: Config, b: Book, code: Code, op0: Operation, target: Option<Uid>,
                   bar: Bar, t: Clock): Outcome
    requires Inv(c, b)
    requires ExecPre(c, b, op0, target, bar)
  {
    var op := Effective(c, op0);
    if target.Some? && Dead(b.positions[target.value]) then Outcome(b, true)
    else if !Allowed(c, op.mmd) then Outcome(b, true)
    else if op.action == Buy then
      if op.openUid in b.positions && b.positions[op.openUid].nowPosRate >= 1.0 then Outcome(b, true)
      else
        var b1 := EnsurePosition(c, b, code, op);
        match OpenSide(c, op)
        case None => Outcome(b1, false)
        case Some(side) => ExecOpen(c, b1, code, op, side, LiveCount(b1.positions, b1.order), bar, t)
    else
      match CloseSide(c, op)
      case None => Outcome(b, false)
      case Some(side) => ExecClose(c, b, code, op, target.value, side, bar, t)
  }

  /** The position after a filled open. */
  function Filled(p: Position, op: Operation, side: Side, fill: Fill, rate: real, t: Clock): Position {
    p.(side := Some(side),
       price := fill.price,
       amount := p.amount + fill.amount,
       balance := p.balance + Notional(fill),
       lossPrice := op.lossPrice,
       openDate := if p.openDate.None? then Some(t.day) else p.openDate,
       openDatetime := if p.openDatetime.None? then Some(t.now) else p.openDatetime,
       openMsg := op.msg,
       info := op.info,
       nowPosRate := p.nowPosRate + Min(1.0, rate),
       openKeys := p.openKeys[op.key := rate],
       openRecords := p.openRecords + [OpenRecord(t.now, fill.price, fill.amount, op.msg, op.key, op.openUid, rate)])
  }

  /** The book after a filled open: the position refilled, cash and fees as the cash routine left them, one order logged. */
  function OpenBooked(b: Book, code: Code, op: Operation, side: Side, p: Position,
                      fill: Fill, cash: real, fees: real, rate: real, t: Clock): Book
  {
    var kind := if side == Long then OpenLong else OpenShort;
    var o := Order(t.now, kind, fill, op.msg, op.openUid, op.closeUid);
    b.(balance := cash, feeTotal := fees,
       positions := b.positions[op.openUid := Filled(p, op, side, fill, rate, t)],
       orders := Append(b.orders, code, o))
  }

  /** The fraction an open adds: the request, clamped to what is still missing. */
  function OpenFraction(p: Position, op: Operation): real {
    Min(1.0 - p.nowPosRate, op.posRate)
  }

  /** The cash routine's answer for an open, given the book's cash and its live positions. */
  function OpenSizing(c: Config, b: Book, p: Position, op: Operation, live: nat, bar: Bar): Opening
    requires bar.close > 0.0
  {
    Open(c.mode, c.feeRate, c.maxPos, b.balance, b.feeTotal, live, OpenFraction(p, op), bar.close, None)
  }

  /** An open the cash routine refused changes nothing; a fill is booked. */
  function OpenApply(b: Book, code: Code, op: Operation, side: Side, p: Position, res: Opening, t: Clock): Outcome {
    match res
    case Rejected => Outcome(b, false)
    case Opened(fill, cash, fees) => Outcome(OpenBooked(b, code, op, side, p, fill, cash, fees, OpenFraction(p, op), t), true)
  }

  /** The open branches (long at 640-688, short at 691-738); `live` is the number of live positions. */
  function ExecOpen(c: Config, b: Book, code: Code, op: Operation, side: Side, live: nat, bar: Bar, t: Clock): Outcome
    requires op.openUid in b.positions && PosInv(b.positions[op.openUid]) && b.positions[op.openUid].nowPosRate < 1.0
    requires OpOk(op) && bar.close > 0.0
  {
    var p := b.positions[op.openUid];
    if op.key in p.openKeys then Outcome(b, false)
    else OpenApply(b, code, op, side, p, OpenSizing(c, b, p, op, live, bar), t)
  }

  /** The close fraction, clamped to what is still held. */
  function CloseFraction(p: Position, op: Operation): real {
    if p.nowPosRate < op.posRate then p.nowPosRate else op.posRate
  }

  /** The same-day sale ban of spot markets. */
  predicate SameDayBanned(c: Config, p: Position, t: Clock) {
    c.isStock && p.openDate == Some(t.day)
  }

  /** The rejections of the close branches. */
  predicate CloseRejected(c: Config, p: Position, op: Operation, side: Side, t: Clock) {
    || (side == Short && p.nowPosRate <= 0.0)
    || op.key in p.closeKeys
    || op.closeUid in p.closeUidProfit
    || SameDayBanned(c, p, t)
  }

  function CloseFunds(c: Config, b: Book, p: Position, side: Side, rate: real, op: Operation, bar: Bar): Closing {
    if side == Long then CloseLongFunds(c.mode, c.feeRate, b.balance, b.feeTotal, p.amount, p.price, rate, op.lossPrice, bar.close)
    else CloseShortFunds(c.mode, c.feeRate, b.balance, b.feeTotal, p.amount, p.price, rate, op.lossPrice, bar.close)
  }

  /** Realised profit of a close: the price move on the held notional, less a round-trip fee on the sale. */
  function Realised(side: Side, hold: real, sell: real, feeUse: real): real {
    if side == Long then sell - hold - feeUse else hold - sell - feeUse
  }

  /** One statistics bucket after a finished trade. */
  function Classify(s: Stats, profit: real): (r: Stats)
    ensures r.winNum + r.lossNum == s.winNum + s.lossNum + 1
    ensures (r.winNum == s.winNum + 1) <==> profit > 0.0
    ensures (r.winBalance - s.winBalance) + (r.lossBalance - s.lossBalance) == Abs(profit)
    ensures r.winBalance >= s.winBalance && r.lossBalance >= s.lossBalance
    ensures profit > 0.0 ==>
      && r.winNum == s.winNum + 1 && r.winBalance == s.winBalance + profit
      && r.lossNum == s.lossNum && r.lossBalance == s.lossBalance
    ensures profit <= 0.0 ==>
      && r.lossNum == s.lossNum + 1 && r.lossBalance == s.lossBalance + Abs(profit)
      && r.winNum == s.winNum && r.winBalance == s.winBalance
  {
    if profit > 0.0 then s.(winNum := s.winNum + 1, winBalance := s.winBalance + profit)
    else s.(lossNum := s.lossNum + 1, lossBalance := s.lossBalance + Abs(profit))
  }

  /** A close with the terminal id that leaves nothing held ends the position. */
  predicate Terminal(p: Position, op: Operation, rate: real) {
    op.closeUid == CLEAR && p.nowPosRate - rate <= 0.0
  }

  /**
   * The position after a filled close of `rate`: the close record and the
   * close-transaction snapshot are always written; only the terminal id
   * commits profit, fraction and close key; a terminal close also stamps
   * the final profit rate and zeroes the balance.
   */
  function Settled(p: Position, op: Operation, side: Side, rate: real, fill: Fill,
                   profit: real, hold: real, t: Clock): (q: Position)
    requires hold != 0.0 && p.balance != 0.0
    ensures PosInv(p) && 0.0 < rate <= p.nowPosRate ==> PosInv(q)
  {
    var p1 := p.(closeRecords := p.closeRecords + [CloseRecord(t.now, fill.price, fill.amount, op.msg, op.key, op.closeUid, rate)],
                 closeUidProfit := p.closeUidProfit[op.closeUid := CloseSnapshot(t.now, Percent(profit, hold), profit, p.maxProfitRate, p.maxLossRate, op.msg)]);
    if op.closeUid != CLEAR then p1
    else
      var p2 := p1.(profit := p1.profit + profit,
                    nowPosRate := p1.nowPosRate - rate,
                    closeKeys := p1.closeKeys[op.key := rate],
                    closeDatetime := if side == Long then Some(t.now) else p1.closeDatetime);
      if !Terminal(p, op, rate) then p2
      else p2.(profitRate := Percent(p2.profit, p2.balance), closeMsg := op.msg, balance := 0.0)
  }

  /** What a filled close computes before it is booked. */
  datatype Settlement = Settlement(rate: real, funds: Closing, feeUse: real, q: Position, terminal: bool)

  /**
   * The computation of a filled close: the clamped fraction, the cash
   * routine's fill and totals, the round-trip fee on the sale, the
   * settled position, and whether the close ends the position.
   */
  function Settle(c: Config, b: Book, p: Position, op: Operation, side: Side, bar: Bar, t: Clock): Settlement
    requires PosInv(p) && !Dead(p) && OpOk(op)
  {
    var rate := CloseFraction(p, op);
    var funds := CloseFunds(c, b, p, side, rate, op, bar);
    var sell := Notional(funds.fill);
    var hold := Portion(p.balance, rate);
    var feeUse := Fee(sell, c.feeRate) * 2.0;
    var profit := Realised(side, hold, sell, feeUse);
    Settlement(rate, funds, feeUse, Settled(p, op, side, rate, funds.fill, profit, hold, t), Terminal(p, op, rate))
  }

  /**
   * The book after a filled close: cash and fees as the cash routine left
   * them (the terminal id also books the round-trip fee), one order
   * logged, the position settled; a terminal close also updates the
   * statistics and archives the position with its balance.
   */
  function CloseBooked(b: Book, code: Code, uid: Uid, op: Operation, side: Side, p: Position,
                       s: Settlement, t: Clock): Book
    requires op.mmd in b.results
  {
    var kind := if side == Long then CloseLong else CloseShort;
    var o := Order(t.now, kind, s.funds.fill, op.msg, op.openUid, op.closeUid);
    var b1 := b.(balance := s.funds.cash,
                 feeTotal := s.funds.feeTotal + (if op.closeUid == CLEAR then s.feeUse else 0.0),
                 orders := Append(b.orders, code, o),
                 positions := b.positions[uid := s.q]);
    if !s.terminal then b1
    else
      b1.(results := b.results[op.mmd := Classify(b.results[op.mmd], s.q.profit)],
          history := Append(b.history, p.code, s.q.(balance := p.balance)))
  }

  /** The close branches (short at 741-834, long at 837-929). */
  function ExecClose(c: Config, b: Book, code: Code, op: Operation, uid: Uid, side: Side,
                     bar: Bar, t: Clock): Outcome
    requires uid in b.positions && PosInv(b.positions[uid]) && !Dead(b.positions[uid])
    requires OpOk(op) && op.mmd in b.results
  {
    var p := b.positions[uid];
    if CloseRejected(c, p, op, side, t) then Outcome(b, false)
    else Outcome(CloseBooked(b, code, uid, op, side, p, Settle(c, b, p, op, side, bar, t), t), true)
  }
}

=== FILE: engine_lemmas.dfy ===
/**
 * What `execute` promises: the invariant it keeps, its early exits and
 * order log, the effects of each branch, the terminal close, and replay
 * protection (a repeated operation changes nothing).
 *
 * The branch lemmas are stated about `ExecOpen` and `ExecClose`; the
 * dispatch lemma says which branch `Execute` takes.
 */
module EngineLemmas {
  import opened Wrappers
  import opened Types
  import opened Sizing
  import opened Ledger
  import opened Engine

  function Last<T>(s: seq<T>): T
    requires |s| > 0
  {
    s[|s| - 1]
  }

  /** `after` is `before` with one more order appended under `code`. */
  predicate Logged(before: map<Code, seq<Order>>, after: map<Code, seq<Order>>, code: Code) {
    code in after && |after[code]| > 0 && after == Append(before, code, Last(after[code]))
  }

  /** What the open branch needs of its caller. */
  predicate OpenPre(b: Book, op: Operation, bar: Bar) {
    && op.openUid in b.positions && PosInv(b.positions[op.openUid]) && b.positions[op.openUid].nowPosRate < 1.0
    && OpOk(op) && bar.close > 0.0
  }

  /** What the close branches need of their caller. */
  predicate ClosePre(b: Book, op: Operation, uid: Uid) {
    && uid in b.positions && PosInv(b.positions[uid]) && !Dead(b.positions[uid])
    && OpOk(op) && op.mmd in b.results
  }

  // ----- framing -----

  /** The invariant looks only at positions, their order, the statistics keys and the buffer. */
  lemma BookFrame(c: Config, b: Book, b': Book)
    requires Inv(c, b)
    requires b'.positions == b.positions && b'.order == b.order && b'.buffer == b.buffer
    requires b.results.Keys <= b'.results.Keys
    ensures Inv(c, b')
  {
  }

  /** Replacing one position by one that keeps the position invariant keeps the invariant. */
  lemma SetPositionInv(c: Config, b: Book, uid: Uid, q: Position)
    requires Inv(c, b) && uid in b.positions && PosInv(q)
    ensures Inv(c, b.(positions := b.positions[uid := q]))
  {
  }

  lemma EnsurePositionInv(c: Config, b: Book, code: Code, op: Operation)
    requires Inv(c, b)
    ensures var b1 := EnsurePosition(c, b, code, op);
      && Inv(c, b1) && op.openUid in b1.positions
      && b.positions.Keys <= b1.positions.Keys
      && (forall u :: u in b.positions ==> b1.positions[u] == b.positions[u])
      && b1 == b.(positions := b1.positions, order := b1.order)
      && (op.openUid !in b.positions ==> EmptyPosition(b1.positions[op.openUid]))
  {
    if op.openUid !in b.positions {
      var b1 := EnsurePosition(c, b, code, op);
      assert op.openUid !in b.order;
      forall u | u in b1.positions ensures u in b1.order {
        if u != op.openUid { assert u in b.order; }
      }
    }
  }

  // ----- the open branch -----

  /** The fields `Filled` writes. */
  lemma FilledFields(p: Position, op: Operation, side: Side, fill: Fill, rate: real, t: Clock)
    requires 0.0 <= p.nowPosRate && 0.0 < rate <= 1.0 - p.nowPosRate
    ensures var q := Filled(p, op, side, fill, rate, t);
      && q.side == Some(side) && q.price == fill.price
      && q.amount == p.amount + fill.amount
      && q.balance == p.balance + Notional(fill)
      && q.nowPosRate == p.nowPosRate + rate <= 1.0
      && q.openKeys == p.openKeys[op.key := rate]
      && q.openDate == (if p.openDate.None? then Some(t.day) else p.openDate)
      && q.openDatetime == (if p.openDatetime.None? then Some(t.now) else p.openDatetime)
      && q.openRecords == p.openRecords + [OpenRecord(t.now, fill.price, fill.amount, op.msg, op.key, op.openUid, rate)]
      && (PosInv(p) && fill.price > 0.0 && fill.amount >= 0.0 ==> PosInv(q))
  {
    if fill.price > 0.0 && fill.amount >= 0.0 {
      assert Notional(fill) >= 0.0;
    }
  }

  /** What `OpenBooked` changes: cash, fees, the one position and the one log. */
  lemma OpenBookedFacts(b: Book, code: Code, op: Operation, side: Side, p: Position,
                        fill: Fill, cash: real, fees: real, rate: real, t: Clock)
    ensures var r := OpenBooked(b, code, op, side, p, fill, cash, fees, rate, t);
      var o := Order(t.now, if side == Long then OpenLong else OpenShort, fill, op.msg, op.openUid, op.closeUid);
      && r.balance == cash && r.feeTotal == fees
      && r.positions == b.positions[op.openUid := Filled(p, op, side, fill, rate, t)]
      && Logged(b.orders, r.orders, code) && Last(r.orders[code]) == o
      && r.order == b.order && r.buffer == b.buffer && r.results == b.results && r.history == b.history
  {
    var o := Order(t.now, if side == Long then OpenLong else OpenShort, fill, op.msg, op.openUid, op.closeUid);
    assert Last(Append(b.orders, code, o)[code]) == o;
  }

  /** An open with a fresh key is sized by the cash routine and booked when it fills. */
  lemma OpenGlue(c: Config, b: Book, code: Code, op: Operation, side: Side, live: nat, bar: Bar, t: Clock)
    requires OpenPre(b, op, bar) && op.key !in b.positions[op.openUid].openKeys
    ensures var p := b.positions[op.openUid];
      var res := OpenSizing(c, b, p, op, live, bar);
      var r := ExecOpen(c, b, code, op, side, live, bar, t);
      && 0.0 < OpenFraction(p, op) <= 1.0 - p.nowPosRate
      && (res.Rejected? ==> r == Outcome(b, false))
      && (res.Opened? ==> r == Outcome(OpenBooked(b, code, op, side, p, res.fill, res.cash, res.feeTotal, OpenFraction(p, op), t), true))
  {
  }

  /** An open replaces at most its own position, by one that keeps the position invariant, and keeps the index and the buffer. */
  lemma OpenFrame(c: Config, b: Book, code: Code, op: Operation, side: Side, live: nat, bar: Bar, t: Clock)
    requires OpenPre(b, op, bar)
    ensures var r := ExecOpen(c, b, code, op, side, live, bar, t).book;
      && op.openUid in r.positions && PosInv(r.positions[op.openUid])
      && r.positions == b.positions[op.openUid := r.positions[op.openUid]]
      && r.order == b.order && r.buffer == b.buffer && r.results == b.results
  {
    var p := b.positions[op.openUid];
    if op.key !in p.openKeys {
      OpenGlue(c, b, code, op, side, live, bar, t);
      var rate := OpenFraction(p, op);
      var res := OpenSizing(c, b, p, op, live, bar);
      if res.Opened? {
        FilledFields(p, op, side, res.fill, rate, t);
        OpenBookedFacts(b, code, op, side, p, res.fill, res.cash, res.feeTotal, rate, t);
      }
    }
  }

  lemma ExecOpenInv(c: Config, b: Book, code: Code, op: Operation, side: Side, live: nat, bar: Bar, t: Clock)
    requires Inv(c, b) && OpenPre(b, op, bar)
    ensures var r := ExecOpen(c, b, code, op, side, live, bar, t).book;
      && Inv(c, r)
      && r.positions.Keys == b.positions.Keys && r.order == b.order && r.buffer == b.buffer
      && (forall u :: u in b.positions && u != op.openUid ==> r.positions[u] == b.positions[u])
  {
    var r := ExecOpen(c, b, code, op, side, live, bar, t).book;
    OpenFrame(c, b, code, op, side, live, bar, t);
    SetPositionInv(c, b, op.openUid, r.positions[op.openUid]);
    BookFrame(c, b.(positions := r.positions), r);
  }

  /** An open whose key was already used on its position is refused; every refused open changes nothing. */
  lemma OpenRefused(c: Config, b: Book, code: Code, op: Operation, side: Side, live: nat, bar: Bar, t: Clock)
    requires OpenPre(b, op, bar)
    ensures var r := ExecOpen(c, b, code, op, side, live, bar, t);
      && (op.key in b.positions[op.openUid].openKeys ==> r == Outcome(b, false))
      && (!r.ok ==> r.book == b)
  {
    if op.key !in b.positions[op.openUid].openKeys {
      OpenGlue(c, b, code, op, side, live, bar, t);
    }
  }

  /**
   * A filled open (its key was fresh) appends one order of its side,
   * overwrites the position's price with the fill price (the bar's
   * close), and adds the fill to the position's amount and balance.
   */
  lemma OpenEffects(c: Config, b: Book, code: Code, op: Operation, side: Side, live: nat, bar: Bar, t: Clock)
    requires OpenPre(b, op, bar)
    ensures var r := ExecOpen(c, b, code, op, side, live, bar, t);
      var p := b.positions[op.openUid];
      r.ok ==>
        && op.key !in p.openKeys
        && Logged(b.orders, r.book.orders, code)
        && op.openUid in r.book.positions
        && var o := Last(r.book.orders[code]);
           var q := r.book.positions[op.openUid];
           && r.book.positions == b.positions[op.openUid := q]
           && o.kind == (if side == Long then OpenLong else OpenShort)
           && o.openUid == op.openUid
           && q.side == Some(side)
           && q.price == o.fill.price == bar.close
           && q.amount == p.amount + o.fill.amount
           && q.balance == p.balance + Notional(o.fill)
  {
    var p := b.positions[op.openUid];
    if op.key !in p.openKeys {
      OpenGlue(c, b, code, op, side, live, bar, t);
      var rate := OpenFraction(p, op);
      var res := OpenSizing(c, b, p, op, live, bar);
      if res.Opened? {
        FilledFields(p, op, side, res.fill, rate, t);
        OpenBookedFacts(b, code, op, side, p, res.fill, res.cash, res.feeTotal, rate, t);
      }
    }
  }

  /**
   * A filled open raises the fraction by the request clamped to what is
   * missing (so it stays at most 1), records the key and the open record,
   * and stamps the open date and time only once.
   */
  lemma OpenRecords(c: Config, b: Book, code: Code, op: Operation, side: Side, live: nat, bar: Bar, t: Clock)
    requires OpenPre(b, op, bar)
    ensures var r := ExecOpen(c, b, code, op, side, live, bar, t);
      var p := b.positions[op.openUid];
      var rate := OpenFraction(p, op);
      r.ok ==>
        && Logged(b.orders, r.book.orders, code)
        && op.openUid in r.book.positions
        && var o := Last(r.book.orders[code]);
           var q := r.book.positions[op.openUid];
           && 0.0 < rate && q.nowPosRate == p.nowPosRate + rate <= 1.0
           && q.openKeys == p.openKeys[op.key := rate]
           && q.openDate == (if p.openDate.None? then Some(t.day) else p.openDate)
           && q.openDatetime == (if p.openDatetime.None? then Some(t.now) else p.openDatetime)
           && q.openRecords == p.openRecords + [OpenRecord(t.now, o.fill.price, o.fill.amount, op.msg, op.key, op.openUid, rate)]
  {
    var p := b.positions[op.openUid];
    if op.key !in p.openKeys {
      OpenGlue(c, b, code, op, side, live, bar, t);
      var rate := OpenFraction(p, op);
      var res := OpenSizing(c, b, p, op, live, bar);
      if res.Opened? {
        FilledFields(p, op, side, res.fill, rate, t);
        OpenBookedFacts(b, code, op, side, p, res.fill, res.cash, res.feeTotal, rate, t);
      }
    }
  }

  /**
   * Cash of the open branch. In signal mode an open with a fresh key
   * always fills the fixed notional, less friction, scaled by the clamped
   * fraction, and touches neither cash nor fees. In the funded modes it
   * fills exactly when a slot is free and the slot's budget is affordable;
   * cash then falls by the notional plus its fee, and the fee total grows
   * by that fee.
   */
  lemma OpenFunds(c: Config, b: Book, code: Code, op: Operation, side: Side, live: nat, bar: Bar, t: Clock)
    requires OpenPre(b, op, bar)
    ensures var r := ExecOpen(c, b, code, op, side, live, bar, t);
      var p := b.positions[op.openUid];
      var rate := OpenFraction(p, op);
      && (c.mode == Signal ==>
            && (r.ok <==> op.key !in p.openKeys)
            && r.book.balance == b.balance && r.book.feeTotal == b.feeTotal)
      && (c.mode == Signal && r.ok ==>
            Logged(b.orders, r.book.orders, code) && Notional(Last(r.book.orders[code]).fill) == SIGNAL_NOTIONAL * FRICTION * rate)
      && (c.mode != Signal ==>
            (r.ok <==> op.key !in p.openKeys && live < c.maxPos && 0.0 <= Budget(b.balance, c.maxPos, live, rate) <= b.balance))
      && (c.mode != Signal && r.ok ==>
            && Logged(b.orders, r.book.orders, code)
            && live < c.maxPos
            && var n := Notional(Last(r.book.orders[code]).fill);
               && n == Budget(b.balance, c.maxPos, live, rate)
               && r.book.balance == b.balance - (n + Fee(n, c.feeRate))
               && r.book.feeTotal == b.feeTotal + Fee(n, c.feeRate))
  {
    var p := b.positions[op.openUid];
    if op.key !in p.openKeys {
      OpenGlue(c, b, code, op, side, live, bar, t);
      var rate := OpenFraction(p, op);
      assert Min(1.0, rate) == rate;
      var res := OpenSizing(c, b, p, op, live, bar);
      if res.Opened? {
        OpenBookedFacts(b, code, op, side, p, res.fill, res.cash, res.feeTotal, rate, t);
      }
    }
  }

  // ----- the close branches -----

  /** The fill and totals the close cash routines report. */
  lemma CloseFundsFacts(c: Config, b: Book, p: Position, side: Side, rate: real, op: Operation, bar: Bar)
    ensures var f := CloseFunds(c, b, p, side, rate, op, bar);
      var sell := Notional(f.fill);
      var basis := Notional(f.fill.(price := p.price));
      var fee := Fee(sell, c.feeRate);
      && f.fill == Fill(ClosePrice(op.lossPrice, bar.close), Portion(p.amount, rate))
      && (c.mode == Signal ==>
            f.cash == b.balance + (if side == Long then sell - basis else basis - sell) && f.feeTotal == b.feeTotal)
      && (c.mode != Signal ==>
            && f.cash == b.balance + (if side == Long then sell - fee else basis + (basis - sell) - fee)
            && f.feeTotal == b.feeTotal + fee)
  {
  }

  /** What `Settle` computes, field by field. */
  lemma SettleFacts(c: Config, b: Book, p: Position, op: Operation, side: Side, bar: Bar, t: Clock)
    requires PosInv(p) && !Dead(p) && OpOk(op)
    ensures var s := Settle(c, b, p, op, side, bar, t);
      var rate := CloseFraction(p, op);
      var sell := Notional(s.funds.fill);
      var profit := Realised(side, Portion(p.balance, rate), sell, Fee(sell, c.feeRate) * 2.0);
      var q := s.q;
      && s.rate == rate && 0.0 < rate <= p.nowPosRate && rate <= op.posRate
      && s.funds == CloseFunds(c, b, p, side, rate, op, bar)
      && s.feeUse == Fee(sell, c.feeRate) * 2.0
      && (s.terminal <==> op.closeUid == CLEAR && p.nowPosRate <= op.posRate)
      && PosInv(q) && q.code == p.code
      && op.closeUid in q.closeUidProfit && q.closeUidProfit[op.closeUid].profit == profit
      && q.closeRecords == p.closeRecords + [CloseRecord(t.now, s.funds.fill.price, s.funds.fill.amount, op.msg, op.key, op.closeUid, rate)]
      && (op.closeUid != CLEAR ==>
            q.profit == p.profit && q.nowPosRate == p.nowPosRate && q.closeKeys == p.closeKeys && q.balance == p.balance)
      && (op.closeUid == CLEAR ==>
            q.profit == p.profit + profit && q.nowPosRate == p.nowPosRate - rate && q.closeKeys == p.closeKeys[op.key := rate])
      && (s.terminal ==> q.balance == 0.0 && q.nowPosRate == 0.0 && q.profitRate == Percent(q.profit, p.balance))
      && (!s.terminal ==> q.balance == p.balance && q.nowPosRate > 0.0)
  {
    var rate := CloseFraction(p, op);
    assert 0.0 < rate <= p.nowPosRate;
    var hold := Portion(p.balance, rate);
    assert hold != 0.0;
  }

  /** What `CloseBooked` changes: cash, fees, the one position and the one log; on a terminal close, statistics and archive. */
  lemma CloseBookedFacts(b: Book, code: Code, uid: Uid, op: Operation, side: Side, p: Position, s: Settlement, t: Clock)
    requires op.mmd in b.results
    ensures var r := CloseBooked(b, code, uid, op, side, p, s, t);
      var o := Order(t.now, if side == Long then CloseLong else CloseShort, s.funds.fill, op.msg, op.openUid, op.closeUid);
      && r.balance == s.funds.cash
      && r.feeTotal == s.funds.feeTotal + (if op.closeUid == CLEAR then s.feeUse else 0.0)
      && r.positions == b.positions[uid := s.q]
      && Logged(b.orders, r.orders, code) && Last(r.orders[code]) == o
      && r.order == b.order && r.buffer == b.buffer && b.results.Keys <= r.results.Keys
      && (s.terminal ==>
            && r.results == b.results[op.mmd := Classify(b.results[op.mmd], s.q.profit)]
            && r.history == Append(b.history, p.code, s.q.(balance := p.balance)))
      && (!s.terminal ==> r.results == b.results && r.history == b.history)
  {
    var o := Order(t.now, if side == Long then CloseLong else CloseShort, s.funds.fill, op.msg, op.openUid, op.closeUid);
    assert Last(Append(b.orders, code, o)[code]) == o;
  }

  /** A close that is not refused is settled and booked. */
  lemma CloseGlue(c: Config, b: Book, code: Code, op: Operation, uid: Uid, side: Side, bar: Bar, t: Clock)
    requires ClosePre(b, op, uid) && !CloseRejected(c, b.positions[uid], op, side, t)
    ensures ExecClose(c, b, code, op, uid, side, bar, t)
         == Outcome(CloseBooked(b, code, uid, op, side, b.positions[uid], Settle(c, b, b.positions[uid], op, side, bar, t), t), true)
  {
  }

  /** A close replaces at most its own position, by one that keeps the position invariant, and keeps the index and the buffer. */
  lemma CloseFrame(c: Config, b: Book, code: Code, op: Operation, uid: Uid, side: Side, bar: Bar, t: Clock)
    requires ClosePre(b, op, uid)
    ensures var r := ExecClose(c, b, code, op, uid, side, bar, t).book;
      && uid in r.positions && PosInv(r.positions[uid]) && r.positions == b.positions[uid := r.positions[uid]]
      && r.order == b.order && r.buffer == b.buffer && b.results.Keys <= r.results.Keys
  {
    var p := b.positions[uid];
    if !CloseRejected(c, p, op, side, t) {
      CloseGlue(c, b, code, op, uid, side, bar, t);
      SettleFacts(c, b, p, op, side, bar, t);
      CloseBookedFacts(b, code, uid, op, side, p, Settle(c, b, p, op, side, bar, t), t);
    }
  }

  lemma ExecCloseInv(c: Config, b: Book, code: Code, op: Operation, uid: Uid, side: Side, bar: Bar, t: Clock)
    requires Inv(c, b) && ClosePre(b, op, uid)
    ensures var r := ExecClose(c, b, code, op, uid, side, bar, t).book;
      && Inv(c, r)
      && r.positions.Keys == b.positions.Keys && r.order == b.order && r.buffer == b.buffer
      && (forall u :: u in b.positions && u != uid ==> r.positions[u] == b.positions[u])
  {
    var r := ExecClose(c, b, code, op, uid, side, bar, t).book;
    CloseFrame(c, b, code, op, uid, side, bar, t);
    SetPositionInv(c, b, uid, r.positions[uid]);
    BookFrame(c, b.(positions := r.positions), r);
  }

  /**
   * A close is refused, changing nothing, exactly when one of its
   * rejections holds: a used fill key, a recorded close-transaction id,
   * the same-day ban, or (short only) nothing held.
   */
  lemma CloseOutcome(c: Config, b: Book, code: Code, op: Operation, uid: Uid, side: Side, bar: Bar, t: Clock)
    requires ClosePre(b, op, uid)
    ensures var r := ExecClose(c, b, code, op, uid, side, bar, t);
      var rejected := CloseRejected(c, b.positions[uid], op, side, t);
      && (r.ok <==> !rejected)
      && (rejected ==> r.book == b)
  {
  }

  /**
   * The order a filled close logs. The fraction is clamped to what is
   * held; the fill is that fraction of the amount, at the stop price when
   * one is set and at the bar's close otherwise.
   */
  lemma CloseOrder(c: Config, b: Book, code: Code, op: Operation, uid: Uid, side: Side, bar: Bar, t: Clock)
    requires ClosePre(b, op, uid)
    ensures var r := ExecClose(c, b, code, op, uid, side, bar, t);
      var p := b.positions[uid];
      var rate := CloseFraction(p, op);
      r.ok ==>
        && Logged(b.orders, r.book.orders, code)
        && var o := Last(r.book.orders[code]);
           && 0.0 < rate <= p.nowPosRate && rate <= op.posRate
           && o.kind == (if side == Long then CloseLong else CloseShort)
           && o.fill == Fill(ClosePrice(op.lossPrice, bar.close), Portion(p.amount, rate))
           && o.openUid == op.openUid && o.closeUid == op.closeUid
  {
    var p := b.positions[uid];
    if !CloseRejected(c, p, op, side, t) {
      CloseGlue(c, b, code, op, uid, side, bar, t);
      SettleFacts(c, b, p, op, side, bar, t);
      var s := Settle(c, b, p, op, side, bar, t);
      CloseFundsFacts(c, b, p, side, s.rate, op, bar);
      CloseBookedFacts(b, code, uid, op, side, p, s, t);
    }
  }

  /**
   * The position after a filled close. The close record and the
   * close-transaction snapshot are always written; only the terminal id
   * commits profit, fraction and close key. Long profit is sale minus
   * holding minus twice the fee on the sale; short profit is holding
   * minus sale minus that fee.
   */
  lemma CloseSettlement(c: Config, b: Book, code: Code, op: Operation, uid: Uid, side: Side, bar: Bar, t: Clock)
    requires ClosePre(b, op, uid)
    ensures var r := ExecClose(c, b, code, op, uid, side, bar, t);
      var p := b.positions[uid];
      var rate := CloseFraction(p, op);
      var fill := Fill(ClosePrice(op.lossPrice, bar.close), Portion(p.amount, rate));
      var sell := Notional(fill);
      var profit := Realised(side, Portion(p.balance, rate), sell, Fee(sell, c.feeRate) * 2.0);
      r.ok ==>
        && uid in r.book.positions
        && var q := r.book.positions[uid];
           && op.closeUid in q.closeUidProfit && q.closeUidProfit[op.closeUid].profit == profit
           && q.closeRecords == p.closeRecords + [CloseRecord(t.now, fill.price, fill.amount, op.msg, op.key, op.closeUid, rate)]
           && (op.closeUid != CLEAR ==>
                 q.profit == p.profit && q.nowPosRate == p.nowPosRate && q.closeKeys == p.closeKeys && q.balance == p.balance)
           && (op.closeUid == CLEAR ==>
                 q.profit == p.profit + profit && q.nowPosRate == p.nowPosRate - rate && q.closeKeys == p.closeKeys[op.key := rate])
  {
    var p := b.positions[uid];
    if !CloseRejected(c, p, op, side, t) {
      CloseGlue(c, b, code, op, uid, side, bar, t);
      SettleFacts(c, b, p, op, side, bar, t);
      var s := Settle(c, b, p, op, side, bar, t);
      CloseFundsFacts(c, b, p, side, s.rate, op, bar);
      CloseBookedFacts(b, code, uid, op, side, p, s, t);
    }
  }

  /**
   * Cash of a filled close in signal mode: the price difference on the
   * closed amount is added with no fee (long: sale minus cost basis,
   * short: the reverse); the terminal id still adds the round-trip fee to
   * the fee total.
   */
  lemma CloseCashSignal(c: Config, b: Book, code: Code, op: Operation, uid: Uid, side: Side, bar: Bar, t: Clock)
    requires ClosePre(b, op, uid) && c.mode == Signal
    ensures var r := ExecClose(c, b, code, op, uid, side, bar, t);
      var p := b.positions[uid];
      var fill := Fill(ClosePrice(op.lossPrice, bar.close), Portion(p.amount, CloseFraction(p, op)));
      var sell := Notional(fill);
      var basis := Notional(fill.(price := p.price));
      r.ok ==>
        && r.book.balance == b.balance + (if side == Long then sell - basis else basis - sell)
        && r.book.feeTotal == b.feeTotal + (if op.closeUid == CLEAR then Fee(sell, c.feeRate) * 2.0 else 0.0)
  {
    var p := b.positions[uid];
    if !CloseRejected(c, p, op, side, t) {
      CloseGlue(c, b, code, op, uid, side, bar, t);
      SettleFacts(c, b, p, op, side, bar, t);
      var s := Settle(c, b, p, op, side, bar, t);
      CloseFundsFacts(c, b, p, side, s.rate, op, bar);
      CloseBookedFacts(b, code, uid, op, side, p, s, t);
    }
  }

  /**
   * Cash of a filled close in the funded modes: a long close adds the
   * sale less its fee, a short close returns the margin plus its profit
   * less the fee; the fee total grows by that fee, and the terminal id
   * adds the round-trip fee on top.
   */
  lemma CloseCashFunded(c: Config, b: Book, code: Code, op: Operation, uid: Uid, side: Side, bar: Bar, t: Clock)
    requires ClosePre(b, op, uid) && c.mode != Signal
    ensures var r := ExecClose(c, b, code, op, uid, side, bar, t);
      var p := b.positions[uid];
      var fill := Fill(ClosePrice(op.lossPrice, bar.close), Portion(p.amount, CloseFraction(p, op)));
      var sell := Notional(fill);
      var basis := Notional(fill.(price := p.price));
      var fee := Fee(sell, c.feeRate);
      r.ok ==>
        && r.book.balance == b.balance + (if side == Long then sell - fee else basis + (basis - sell) - fee)
        && r.book.feeTotal == b.feeTotal + fee + (if op.closeUid == CLEAR then fee * 2.0 else 0.0)
  {
    var p := b.positions[uid];
    if !CloseRejected(c, p, op, side, t) {
      CloseGlue(c, b, code, op, uid, side, bar, t);
      SettleFacts(c, b, p, op, side, bar, t);
      var s := Settle(c, b, p, op, side, bar, t);
      CloseFundsFacts(c, b, p, side, s.rate, op, bar);
      CloseBookedFacts(b, code, uid, op, side, p, s, t);
    }
  }

  /**
   * A terminal close (the terminal id, and a request covering all that is
   * held): exactly one statistics bucket, the operation's category,
   * changes; a copy of the position with its balance is archived under
   * its code; the live position's fraction and balance become 0.
   */
  lemma TerminalClose(c: Config, b: Book, code: Code, op: Operation, uid: Uid, side: Side, bar: Bar, t: Clock)
    requires ClosePre(b, op, uid) && op.closeUid == CLEAR && b.positions[uid].nowPosRate <= op.posRate
    ensures var r := ExecClose(c, b, code, op, uid, side, bar, t);
      var p := b.positions[uid];
      var q := r.book.positions[uid];
      r.ok ==>
        && q.balance == 0.0 && q.nowPosRate == 0.0
        && r.book.results == b.results[op.mmd := Classify(b.results[op.mmd], q.profit)]
        && r.book.history == Append(b.history, p.code, q.(balance := p.balance))
        && q.profitRate == Percent(q.profit, p.balance)
  {
    var p := b.positions[uid];
    if !CloseRejected(c, p, op, side, t) {
      CloseGlue(c, b, code, op, uid, side, bar, t);
      SettleFacts(c, b, p, op, side, bar, t);
      CloseBookedFacts(b, code, uid, op, side, p, Settle(c, b, p, op, side, bar, t), t);
    }
  }

  /**
   * A filled close that is not terminal touches neither the statistics
   * nor the archive, and the position keeps its balance and a positive
   * fraction.
   */
  lemma PartialClose(c: Config, b: Book, code: Code, op: Operation, uid: Uid, side: Side, bar: Bar, t: Clock)
    requires ClosePre(b, op, uid) && !(op.closeUid == CLEAR && b.positions[uid].nowPosRate <= op.posRate)
    ensures var r := ExecClose(c, b, code, op, uid, side, bar, t);
      var p := b.positions[uid];
      var q := r.book.positions[uid];
      r.ok ==>
        && r.book.results == b.results && r.book.history == b.history
        && q.balance == p.balance && q.nowPosRate > 0.0
  {
    var p := b.positions[uid];
    if !CloseRejected(c, p, op, side, t) {
      CloseGlue(c, b, code, op, uid, side, bar, t);
      SettleFacts(c, b, p, op, side, bar, t);
      CloseBookedFacts(b, code, uid, op, side, p, Settle(c, b, p, op, side, bar, t), t);
    }
  }

  // ----- dispatch -----

  /** The effective operation selects the same branch as the original. */
  lemma EffectiveSelects(c: Config, op: Operation)
    ensures var e := Effective(c, op);
      && e.action == op.action && e.mmd == op.mmd && e.key == op.key && e.openUid == op.openUid
      && e.posRate == op.posRate && e.lossPrice == op.lossPrice
      && OpenSide(c, e) == OpenSide(c, op) && CloseSide(c, op) == CloseSide(c, e)
      && (c.mode != Signal ==> e.closeUid == CLEAR)
      && (c.mode == Signal ==> e == op)
  {
  }

  /** The early exits of `execute` report success and change nothing. */
  lemma DispatchExit(c: Config, b: Book, code: Code, op: Operation, target: Option<Uid>, bar: Bar, t: Clock)
    requires Inv(c, b) && ExecPre(c, b, op, target, bar)
    ensures EarlyExit(c, b, op, target) ==> Execute(c, b, code, op, target, bar, t) == Outcome(b, true)
  {
  }

  /**
   * A buy that is not an early exit first ensures its position; with an
   * open side it runs that open branch, without one it fails, leaving
   * only the ensured position.
   */
  lemma DispatchBuy(c: Config, b: Book, code: Code, op: Operation, target: Option<Uid>, bar: Bar, t: Clock)
    requires Inv(c, b) && ExecPre(c, b, op, target, bar) && !EarlyExit(c, b, op, target) && op.action == Buy
    ensures var r := Execute(c, b, code, op, target, bar, t);
      var e := Effective(c, op);
      var b1 := EnsurePosition(c, b, code, e);
      && OpenPre(b1, e, bar) && Indexed(b1.positions, b1.order)
      && (OpenSide(c, op).None? ==> r == Outcome(b1, false))
      && (OpenSide(c, op).Some? ==> r == ExecOpen(c, b1, code, e, OpenSide(c, op).value, LiveCount(b1.positions, b1.order), bar, t))
  {
    var e := Effective(c, op);
    EffectiveSelects(c, op);
    EnsurePositionInv(c, b, code, e);
    var b1 := EnsurePosition(c, b, code, e);
    var r := Execute(c, b, code, op, target, bar, t);
    assert r == (match OpenSide(c, e)
                 case None => Outcome(b1, false)
                 case Some(side) => ExecOpen(c, b1, code, e, side, LiveCount(b1.positions, b1.order), bar, t));
  }

  /**
   * A sell that is not an early exit runs the close branch of its side on
   * its target, or fails and changes nothing when it has no close side.
   */
  lemma DispatchSell(c: Config, b: Book, code: Code, op: Operation, target: Option<Uid>, bar: Bar, t: Clock)
    requires Inv(c, b) && ExecPre(c, b, op, target, bar) && !EarlyExit(c, b, op, target) && op.action == Sell
    ensures var r := Execute(c, b, code, op, target, bar, t);
      var e := Effective(c, op);
      && (CloseSide(c, op).None? ==> r == Outcome(b, false))
      && (CloseSide(c, op).Some? ==>
            && target.Some? && ClosePre(b, e, target.value)
            && r == ExecClose(c, b, code, e, target.value, CloseSide(c, op).value, bar, t))
  {
    EffectiveSelects(c, op);
  }

  /** `execute` keeps the invariant (0 <= now_pos_rate <= 1 and the rest); a sell touches only its target. */
  lemma ExecuteInv(c: Config, b: Book, code: Code, op: Operation, target: Option<Uid>, bar: Bar, t: Clock)
    requires Inv(c, b) && ExecPre(c, b, op, target, bar)
    ensures var r := Execute(c, b, code, op, target, bar, t).book;
      && Inv(c, r)
      && b.positions.Keys <= r.positions.Keys
      && r.buffer == b.buffer
      && (op.action == Sell ==>
            && r.positions.Keys == b.positions.Keys && r.order == b.order
            && forall u :: u in b.positions && Some(u) != target ==> r.positions[u] == b.positions[u])
  {
    var e := Effective(c, op);
    if EarlyExit(c, b, op, target) {
      DispatchExit(c, b, code, op, target, bar, t);
    } else if op.action == Buy {
      DispatchBuy(c, b, code, op, target, bar, t);
      var b1 := EnsurePosition(c, b, code, e);
      EnsurePositionInv(c, b, code, e);
      if OpenSide(c, op).Some? {
        ExecOpenInv(c, b1, code, e, OpenSide(c, op).value, LiveCount(b1.positions, b1.order), bar, t);
      }
    } else {
      DispatchSell(c, b, code, op, target, bar, t);
      if CloseSide(c, op).Some? {
        ExecCloseInv(c, b, code, e, target.value, CloseSide(c, op).value, bar, t);
      }
    }
  }

  /**
   * The order log: an order is appended under `code` exactly when a
   * branch filled; the result is true exactly for an early exit or a fill.
   */
  lemma ExecuteOrderLog(c: Config, b: Book, code: Code, op: Operation, target: Option<Uid>, bar: Bar, t: Clock)
    requires Inv(c, b) && ExecPre(c, b, op, target, bar)
    ensures var r := Execute(c, b, code, op, target, bar, t);
      && (r.book.orders == b.orders || Logged(b.orders, r.book.orders, code))
      && (r.ok <==> EarlyExit(c, b, op, target) || r.book.orders != b.orders)
  {
    var e := Effective(c, op);
    if EarlyExit(c, b, op, target) {
      DispatchExit(c, b, code, op, target, bar, t);
    } else if op.action == Buy {
      DispatchBuy(c, b, code, op, target, bar, t);
      var b1 := EnsurePosition(c, b, code, e);
      EnsurePositionInv(c, b, code, e);
      if OpenSide(c, op).Some? {
        OpenRefused(c, b1, code, e, OpenSide(c, op).value, LiveCount(b1.positions, b1.order), bar, t);
        OpenEffects(c, b1, code, e, OpenSide(c, op).value, LiveCount(b1.positions, b1.order), bar, t);
      }
    } else {
      DispatchSell(c, b, code, op, target, bar, t);
      if CloseSide(c, op).Some? {
        CloseOutcome(c, b, code, e, target.value, CloseSide(c, op).value, bar, t);
        CloseOrder(c, b, code, e, target.value, CloseSide(c, op).value, bar, t);
      }
    }
  }

  /**
   * Given the same-day ban, a close on the day its position was opened
   * is refused, and the same close on any other day is not refused by it.
   */
  lemma SameDayBan(c: Config, b: Book, code: Code, op: Operation, uid: Uid, side: Side, bar: Bar, t: Clock)
    requires ClosePre(b, op, uid) && c.isStock
    ensures var p := b.positions[uid];
      && (p.openDate == Some(t.day) ==> ExecClose(c, b, code, op, uid, side, bar, t) == Outcome(b, false))
      && (p.openDate != Some(t.day) && op.key !in p.closeKeys && op.closeUid !in p.closeUidProfit ==>
            ExecClose(c, b, code, op, uid, side, bar, t).ok)
  {
    CloseOutcome(c, b, code, op, uid, side, bar, t);
  }

  /** Once an open has filled, the same open against the state it produced is refused. */
  lemma OpenReplay(c: Config, b: Book, code: Code, op: Operation, side: Side, live: nat, bar: Bar, t: Clock)
    requires OpenPre(b, op, bar) && ExecOpen(c, b, code, op, side, live, bar, t).ok
    ensures var b' := ExecOpen(c, b, code, op, side, live, bar, t).book;
      op.openUid in b'.positions && op.key in b'.positions[op.openUid].openKeys
  {
    OpenRecords(c, b, code, op, side, live, bar, t);
  }

  /** Once a close has filled, the same close against the state it produced is refused. */
  lemma CloseReplay(c: Config, b: Book, code: Code, op: Operation, uid: Uid, side: Side, bar: Bar, t: Clock)
    requires ClosePre(b, op, uid) && ExecClose(c, b, code, op, uid, side, bar, t).ok
    ensures var b' := ExecClose(c, b, code, op, uid, side, bar, t).book;
      uid in b'.positions && op.closeUid in b'.positions[uid].closeUidProfit
  {
    CloseSettlement(c, b, code, op, uid, side, bar, t);
  }

  /** A buy whose key is already recorded on its position changes nothing. */
  lemma BuyWithUsedKey(c: Config, b: Book, code: Code, op: Operation, target: Option<Uid>, bar: Bar, t: Clock)
    requires Inv(c, b) && ExecPre(c, b, op, target, bar) && op.action == Buy
    requires op.openUid in b.positions && op.key in b.positions[op.openUid].openKeys
    ensures Execute(c, b, code, op, target, bar, t).book == b
  {
    var e := Effective(c, op);
    if EarlyExit(c, b, op, target) {
      DispatchExit(c, b, code, op, target, bar, t);
    } else {
      DispatchBuy(c, b, code, op, target, bar, t);
      assert EnsurePosition(c, b, code, e) == b;
      if OpenSide(c, op).Some? {
        OpenRefused(c, b, code, e, OpenSide(c, op).value, LiveCount(b.positions, b.order), bar, t);
      }
    }
  }

  /** A buy replayed against the state its fill produced changes nothing. */
  lemma ReplayBuy(c: Config, b: Book, code: Code, op: Operation, target: Option<Uid>, bar: Bar, t: Clock)
    requires Inv(c, b) && ExecPre(c, b, op, target, bar) && op.action == Buy
    requires Execute(c, b, code, op, target, bar, t).book.orders != b.orders
    requires var b' := Execute(c, b, code, op, target, bar, t).book; Inv(c, b') && ExecPre(c, b', op, target, bar)
    ensures var b' := Execute(c, b, code, op, target, bar, t).book;
      Execute(c, b', code, op, target, bar, t).book == b'
  {
    var e := Effective(c, op);
    DispatchExit(c, b, code, op, target, bar, t);
    assert !EarlyExit(c, b, op, target);
    DispatchBuy(c, b, code, op, target, bar, t);
    var b1 := EnsurePosition(c, b, code, e);
    OpenReplay(c, b1, code, e, OpenSide(c, op).value, LiveCount(b1.positions, b1.order), bar, t);
    BuyWithUsedKey(c, Execute(c, b, code, op, target, bar, t).book, code, op, target, bar, t);
  }

  /** A sell whose close-transaction id is already recorded on its target changes nothing. */
  lemma SellWithUsedCloseId(c: Config, b: Book, code: Code, op: Operation, target: Option<Uid>, bar: Bar, t: Clock)
    requires Inv(c, b) && ExecPre(c, b, op, target, bar) && op.action == Sell
    requires target.Some? && Effective(c, op).closeUid in b.positions[target.value].closeUidProfit
    ensures Execute(c, b, code, op, target, bar, t).book == b
  {
    var e := Effective(c, op);
    if EarlyExit(c, b, op, target) {
      DispatchExit(c, b, code, op, target, bar, t);
    } else {
      DispatchSell(c, b, code, op, target, bar, t);
      if CloseSide(c, op).Some? {
        CloseOutcome(c, b, code, e, target.value, CloseSide(c, op).value, bar, t);
      }
    }
  }

  /** A sell replayed against the state its fill produced changes nothing. */
  lemma ReplaySell(c: Config, b: Book, code: Code, op: Operation, target: Option<Uid>, bar: Bar, t: Clock)
    requires Inv(c, b) && ExecPre(c, b, op, target, bar) && op.action == Sell
    requires Execute(c, b, code, op, target, bar, t).book.orders != b.orders
    requires var b' := Execute(c, b, code, op, target, bar, t).book; Inv(c, b') && ExecPre(c, b', op, target, bar)
    ensures var b' := Execute(c, b, code, op, target, bar, t).book;
      Execute(c, b', code, op, target, bar, t).book == b'
  {
    var e := Effective(c, op);
    DispatchExit(c, b, code, op, target, bar, t);
    assert !EarlyExit(c, b, op, target);
    DispatchSell(c, b, code, op, target, bar, t);
    CloseReplay(c, b, code, e, target.value, CloseSide(c, op).value, bar, t);
    SellWithUsedCloseId(c, Execute(c, b, code, op, target, bar, t).book, code, op, target, bar, t);
  }

  /**
   * Replay protection: once an operation has filled, executing it again
   * against the state it produced changes nothing.
   */
  lemma ReplayIsNoOp(c: Config, b: Book, code: Code, op: Operation, target: Option<Uid>, bar: Bar, t: Clock)
    requires Inv(c, b) && ExecPre(c, b, op, target, bar)
    requires Execute(c, b, code, op, target, bar, t).book.orders != b.orders
    ensures var b' := Execute(c, b, code, op, target, bar, t).book;
      && Inv(c, b') && ExecPre(c, b', op, target, bar)
      && Execute(c, b', code, op, target, bar, t).book == b'
  {
    ExecuteInv(c, b, code, op, target, bar, t);
    if op.action == Buy {
      ReplayBuy(c, b, code, op, target, bar, t);
    } else {
      ReplaySell(c, b, code, op, target, bar, t);
    }
  }

  /** Outside signal mode a sell that filled leaves the id "clear" recorded on its target. */
  lemma FundedCloseRecorded(c: Config, b: Book, code: Code, op: Operation, target: Option<Uid>, bar: Bar, t: Clock)
    requires c.mode != Signal
    requires Inv(c, b) && ExecPre(c, b, op, target, bar) && op.action == Sell
    requires Execute(c, b, code, op, target, bar, t).book.orders != b.orders
    ensures var b' := Execute(c, b, code, op, target, bar, t).book;
      && Inv(c, b') && target.Some? && target.value in b'.positions
      && CLEAR in b'.positions[target.value].closeUidProfit
  {
    ExecuteInv(c, b, code, op, target, bar, t);
    DispatchExit(c, b, code, op, target, bar, t);
    assert !EarlyExit(c, b, op, target);
    DispatchSell(c, b, code, op, target, bar, t);
    CloseReplay(c, b, code, Effective(c, op), target.value, CloseSide(c, op).value, bar, t);
    EffectiveSelects(c, op);
  }

  /**
   * Outside signal mode every close carries the id "clear", so once one
   * sell has filled against a position, every later sell against it, of
   * whatever key, fraction or category, is refused and changes nothing.
   */
  lemma FundedOneClose(c: Config, b: Book, code: Code, op: Operation, target: Option<Uid>, bar: Bar, t: Clock,
                       code2: Code, op2: Operation, bar2: Bar, t2: Clock)
    requires c.mode != Signal
    requires Inv(c, b) && ExecPre(c, b, op, target, bar) && op.action == Sell
    requires Execute(c, b, code, op, target, bar, t).book.orders != b.orders
    requires var b' := Execute(c, b, code, op, target, bar, t).book; ExecPre(c, b', op2, target, bar2) && op2.action == Sell
    ensures var b' := Execute(c, b, code, op, target, bar, t).book;
      Inv(c, b') && Execute(c, b', code2, op2, target, bar2, t2).book == b'
  {
    FundedCloseRecorded(c, b, code, op, target, bar, t);
    EffectiveSelects(c, op2);
    SellWithUsedCloseId(c, Execute(c, b, code, op, target, bar, t).book, code2, op2, target, bar2, t2);
  }
}

=== FILE: ledger.dfy ===
/**
 * The position ledger: the live-position filters of the trader
 * (hold_positions, position_codes, the pruning at the end of `run`),
 * the append-only per-code logs, and the invariant every reachable
 * trader state keeps.
 */
module Ledger {
  import opened Wrappers
  import opened Types

  /** The liveness test of `execute`: such a position is skipped. */
  predicate Dead(p: Position) {
    p.balance == 0.0 || p.nowPosRate == 0.0
  }

  /** What every position of a reachable state satisfies. */
  predicate PosInv(p: Position) {
    && 0.0 <= p.nowPosRate <= 1.0
    && 0.0 <= p.amount
    && 0.0 <= p.balance
    && (p.side.Some? ==> p.price > 0.0)
  }

  predicate Distinct(s: seq<Uid>) {
    forall i, j :: 0 <= i < j < |s| ==> s[i] != s[j]
  }

  /** Every index of `order` is a key of `ps`. */
  predicate Indexed(ps: map<Uid, Position>, order: seq<Uid>) {
    forall i :: 0 <= i < |order| ==> order[i] in ps
  }

  /** `order` lists the keys of `ps` once each: the dictionary's insertion order. */
  predicate OrderMatches(ps: map<Uid, Position>, order: seq<Uid>) {
    && Distinct(order)
    && Indexed(ps, order)
    && (forall u :: u in ps ==> u in order)
  }

  /** The `allow_mmds` filter. */
  predicate Allowed(c: Config, m: Mmd) {
    c.allowMmds.None? || m in c.allowMmds.value
  }

  /** Assumed of every operation the strategy issues: a positive fraction. */
  predicate OpOk(op: Operation) {
    op.posRate > 0.0
  }

  /**
   * An operation `execute` may receive without a target position: one
   * that never reaches a close branch (which would dereference it).
   */
  predicate SafeWithoutTarget(c: Config, op: Operation) {
    op.action == Buy || !Allowed(c, op.mmd) || (op.mmd.IsSell() && !c.isFutures)
  }

  predicate ConfigOk(c: Config) {
    EmptyPosition(c.blank)
  }

  /** The invariant of the trader's state. */
  ghost predicate Inv(c: Config, b: Book) {
    && ConfigOk(c)
    && OrderMatches(b.positions, b.order)
    && (forall u :: u in b.positions ==> PosInv(b.positions[u]))
    && (forall m: Mmd :: m in b.results)
    && (forall i :: 0 <= i < |b.buffer| ==> OpOk(b.buffer[i]) && SafeWithoutTarget(c, b.buffer[i]))
  }

  lemma InitialInv(c: Config, initBalance: real)
    requires ConfigOk(c)
    ensures Inv(c, InitialBook(c, initBalance))
  {
    forall m: Mmd ensures m in INITIAL_RESULTS {
      match m
      case FirstBuy => case SecondBuy => case L2Buy => case ThirdBuy => case L3Buy =>
      case DownBiBcBuy => case DownXdBcBuy => case DownPzBcBuy => case DownQsBcBuy =>
      case FirstSell => case SecondSell => case L2Sell => case ThirdSell => case L3Sell =>
      case UpBiBcSell => case UpXdBcSell => case UpPzBcSell => case UpQsBcSell =>
    }
  }

  /** hold_positions: the live positions, in dictionary order. */
  function HoldPositions(ps: map<Uid, Position>, order: seq<Uid>): (r: seq<Position>)
    requires Indexed(ps, order)
    ensures |r| <= |order|
    ensures forall i :: 0 <= i < |r| ==> r[i].balance != 0.0
    ensures forall i :: 0 <= i < |r| ==> exists j :: 0 <= j < |order| && ps[order[j]] == r[i]
    ensures forall j :: 0 <= j < |order| && ps[order[j]].balance != 0.0 ==> ps[order[j]] in r
  {
    if order == [] then []
    else
      var rest := HoldPositions(ps, order[1..]);
      assert forall j :: 1 <= j < |order| ==> order[j] == order[1..][j - 1];
      if ps[order[0]].balance != 0.0 then [ps[order[0]]] + rest else rest
  }

  lemma HoldCons(ps: map<Uid, Position>, order: seq<Uid>)
    requires Indexed(ps, order) && order != [] && Indexed(ps, order[1..])
    ensures HoldPositions(ps, order)
         == (if ps[order[0]].balance != 0.0 then [ps[order[0]]] else []) + HoldPositions(ps, order[1..])
  {
  }

  lemma LiveOrderCons(ps: map<Uid, Position>, order: seq<Uid>)
    requires order != []
    ensures LiveOrder(ps, order)
         == (if order[0] in ps && ps[order[0]].balance != 0.0 then [order[0]] else []) + LiveOrder(ps, order[1..])
  {
  }

  /** hold_positions lists, one for one, the positions of the keys the pruning keeps, in the same order. */
  lemma {:induction false} HoldFollowsLiveOrder(ps: map<Uid, Position>, order: seq<Uid>)
    requires Indexed(ps, order)
    ensures |HoldPositions(ps, order)| == |LiveOrder(ps, order)|
    ensures forall i :: 0 <= i < |LiveOrder(ps, order)| ==> HoldPositions(ps, order)[i] == ps[LiveOrder(ps, order)[i]]
  {
    if order != [] {
      assert Indexed(ps, order[1..]) by {
        forall j | 0 <= j < |order[1..]| ensures order[1..][j] in ps { assert order[1..][j] == order[j + 1]; }
      }
      HoldFollowsLiveOrder(ps, order[1..]);
      HoldCons(ps, order);
      LiveOrderCons(ps, order);
      var h, l := HoldPositions(ps, order[1..]), LiveOrder(ps, order[1..]);
      var hs, ls := HoldPositions(ps, order), LiveOrder(ps, order);
      var d := |ls| - |l|;
      forall i | 0 <= i < |ls| ensures hs[i] == ps[ls[i]] {
        if i >= d {
          assert hs[i] == h[i - d] && ls[i] == l[i - d];
        }
      }
    }
  }

  /** The number of live positions, counted without building the list. */
  function LiveCount(ps: map<Uid, Position>, order: seq<Uid>): nat
    requires Indexed(ps, order)
  {
    if order == [] then 0
    else
      assert Indexed(ps, order[1..]) by {
        forall j | 0 <= j < |order[1..]| ensures order[1..][j] in ps { assert order[1..][j] == order[j + 1]; }
      }
      (if ps[order[0]].balance != 0.0 then 1 else 0) + LiveCount(ps, order[1..])
  }

  /** The count is the length of hold_positions: `len(self.hold_positions())`, the figure the open-slot check uses. */
  lemma {:induction false} LiveCountIsHeld(ps: map<Uid, Position>, order: seq<Uid>)
    requires Indexed(ps, order)
    ensures LiveCount(ps, order) == |HoldPositions(ps, order)| <= |order|
  {
    if order != [] {
      assert Indexed(ps, order[1..]) by {
        forall j | 0 <= j < |order[1..]| ensures order[1..][j] in ps { assert order[1..][j] == order[j + 1]; }
      }
      LiveCountIsHeld(ps, order[1..]);
    }
  }

  /** position_codes: the instruments with a live position. */
  function PositionCodes(ps: map<Uid, Position>, order: seq<Uid>): (r: set<Code>)
    requires OrderMatches(ps, order)
    ensures forall u :: u in ps && ps[u].balance != 0.0 ==> ps[u].code in r
    ensures forall code :: code in r ==> exists u :: u in ps && ps[u].balance != 0.0 && ps[u].code == code
  {
    var hold := HoldPositions(ps, order);
    assert forall u :: u in ps ==> exists j :: 0 <= j < |order| && order[j] == u;
    set i | 0 <= i < |hold| :: hold[i].code
  }

  /** The live positions of one instrument, in dictionary order (the list `run` hands to the strategy). */
  function LiveOfCode(ps: map<Uid, Position>, order: seq<Uid>, code: Code): (r: seq<Position>)
    ensures forall i :: 0 <= i < |r| ==> r[i].balance != 0.0 && r[i].code == code
    ensures forall j :: 0 <= j < |order| && order[j] in ps && ps[order[j]].balance != 0.0 && ps[order[j]].code == code ==>
      ps[order[j]] in r
  {
    if order == [] then []
    else
      var rest := LiveOfCode(ps, order[1..], code);
      assert forall j :: 1 <= j < |order| ==> order[j] == order[1..][j - 1];
      if order[0] in ps && ps[order[0]].code == code && ps[order[0]].balance != 0.0 then [ps[order[0]]] + rest else rest
  }

  /** The keys kept by the pruning step, in their old order. */
  function LiveOrder(ps: map<Uid, Position>, order: seq<Uid>): (r: seq<Uid>)
    ensures forall i :: 0 <= i < |r| ==> r[i] in order && r[i] in ps && ps[r[i]].balance != 0.0
    ensures forall j :: 0 <= j < |order| && order[j] in ps && ps[order[j]].balance != 0.0 ==> order[j] in r
    ensures Distinct(order) ==> Distinct(r)
  {
    if order == [] then []
    else
      var rest := LiveOrder(ps, order[1..]);
      assert forall j :: 1 <= j < |order| ==> order[j] == order[1..][j - 1];
      if order[0] in ps && ps[order[0]].balance != 0.0 then [order[0]] + rest else rest
  }

  /** `idx` is a strictly increasing list of indices below `n`: the places a filtered list was picked from. */
  predicate Picks(idx: seq<int>, n: int) {
    && (forall i :: 0 <= i < |idx| ==> 0 <= idx[i] < n)
    && (forall i, j :: 0 <= i < j < |idx| ==> idx[i] < idx[j])
  }

  /** `r` lists the keys of `order` at the places `idx`, in that order. */
  predicate KeysAt(idx: seq<int>, r: seq<Uid>, order: seq<Uid>) {
    Picks(idx, |order|) && |idx| == |r| && forall i :: 0 <= i < |idx| ==> r[i] == order[idx[i]]
  }

  /** `r` lists the positions of the keys of `order` at the places `idx`, in that order. */
  predicate PositionsAt(idx: seq<int>, r: seq<Position>, ps: map<Uid, Position>, order: seq<Uid>) {
    Picks(idx, |order|) && |idx| == |r| && forall i :: 0 <= i < |idx| ==> order[idx[i]] in ps && r[i] == ps[order[idx[i]]]
  }

  /** The places picked from a tail, renumbered for the whole list and preceded by the head when it is kept. */
  function PickTail(keep: bool, idx: seq<int>): seq<int> {
    (if keep then [0] else []) + seq(|idx|, i requires 0 <= i < |idx| => idx[i] + 1)
  }

  lemma PickTailPicks(keep: bool, idx: seq<int>, n: int)
    requires 0 <= n && Picks(idx, n)
    ensures Picks(PickTail(keep, idx), n + 1)
  {
    var r := PickTail(keep, idx);
    var d := |r| - |idx|;
    assert forall i :: d <= i < |r| ==> r[i] == idx[i - d] + 1;
  }

  lemma KeysAtCons(order: seq<Uid>, keep: bool, rest: seq<Uid>, idx: seq<int>)
    requires |order| > 0 && KeysAt(idx, rest, order[1..])
    ensures KeysAt(PickTail(keep, idx), (if keep then [order[0]] else []) + rest, order)
  {
    PickTailPicks(keep, idx, |order| - 1);
    var r := (if keep then [order[0]] else []) + rest;
    var p := PickTail(keep, idx);
    var d := |p| - |idx|;
    forall i | 0 <= i < |p| ensures r[i] == order[p[i]] {
      if i >= d {
        assert r[i] == rest[i - d] && p[i] == idx[i - d] + 1;
      }
    }
  }

  lemma PositionsAtCons(ps: map<Uid, Position>, order: seq<Uid>, keep: bool, rest: seq<Position>, idx: seq<int>)
    requires |order| > 0 && PositionsAt(idx, rest, ps, order[1..]) && (keep ==> order[0] in ps)
    ensures keep ==> PositionsAt(PickTail(keep, idx), [ps[order[0]]] + rest, ps, order)
    ensures !keep ==> PositionsAt(PickTail(keep, idx), rest, ps, order)
  {
    PickTailPicks(keep, idx, |order| - 1);
    var r := if keep then [ps[order[0]]] + rest else rest;
    var p := PickTail(keep, idx);
    var d := |p| - |idx|;
    forall i | 0 <= i < |p| ensures order[p[i]] in ps && r[i] == ps[order[p[i]]] {
      if i >= d {
        assert r[i] == rest[i - d] && p[i] == idx[i - d] + 1;
      }
    }
  }

  /** The pruned key order is a subsequence of the old one: the keys with money keep their dictionary order. */
  lemma {:induction false} LiveOrderKeepsOrder(ps: map<Uid, Position>, order: seq<Uid>)
    ensures exists idx :: KeysAt(idx, LiveOrder(ps, order), order)
  {
    if order == [] {
      assert KeysAt([], LiveOrder(ps, order), order);
    } else {
      LiveOrderKeepsOrder(ps, order[1..]);
      var idx :| KeysAt(idx, LiveOrder(ps, order[1..]), order[1..]);
      var keep := order[0] in ps && ps[order[0]].balance != 0.0;
      KeysAtCons(order, keep, LiveOrder(ps, order[1..]), idx);
      assert KeysAt(PickTail(keep, idx), LiveOrder(ps, order), order);
    }
  }

  /** The list handed to the open hook follows dictionary order, one entry per key with money of the instrument. */
  lemma {:induction false} LiveOfCodeKeepsOrder(ps: map<Uid, Position>, order: seq<Uid>, code: Code)
    ensures exists idx :: PositionsAt(idx, LiveOfCode(ps, order, code), ps, order)
  {
    if order == [] {
      assert PositionsAt([], LiveOfCode(ps, order, code), ps, order);
    } else {
      LiveOfCodeKeepsOrder(ps, order[1..], code);
      var idx :| PositionsAt(idx, LiveOfCode(ps, order[1..], code), ps, order[1..]);
      var keep := order[0] in ps && ps[order[0]].code == code && ps[order[0]].balance != 0.0;
      PositionsAtCons(ps, order, keep, LiveOfCode(ps, order[1..], code), idx);
      assert PositionsAt(PickTail(keep, idx), LiveOfCode(ps, order, code), ps, order);
    }
  }

  /** The positions with money. */
  function LiveMap(ps: map<Uid, Position>): (r: map<Uid, Position>)
    ensures forall u :: u in r ==> u in ps && r[u] == ps[u] && ps[u].balance != 0.0
    ensures forall u :: u in ps && ps[u].balance != 0.0 ==> u in r
  {
    map u | u in ps && ps[u].balance != 0.0 :: ps[u]
  }

  /** The dictionary comprehension that ends `run`: keep the positions with money. */
  function Prune(b: Book): (r: Book)
    ensures forall u :: u in r.positions ==> r.positions[u].balance != 0.0
    ensures forall u :: u in b.positions && b.positions[u].balance != 0.0 ==>
      u in r.positions && r.positions[u] == b.positions[u]
    ensures r.positions.Keys <= b.positions.Keys
  {
    b.(positions := LiveMap(b.positions), order := LiveOrder(b.positions, b.order))
  }

  lemma PruneInv(c: Config, b: Book)
    requires Inv(c, b)
    ensures Inv(c, Prune(b))
  {
    var r := Prune(b);
    forall u | u in r.positions ensures u in r.order {
      var j :| 0 <= j < |b.order| && b.order[j] == u;
    }
  }

  /** Append `x` to the list kept under `code` (the per-code order log and history). */
  function Append<T>(m: map<Code, seq<T>>, code: Code, x: T): (r: map<Code, seq<T>>)
    ensures code in r && r[code] == (if code in m then m[code] else []) + [x]
    ensures forall k :: k in m && k != code ==> k in r && r[k] == m[k]
    ensures r.Keys == m.Keys + {code}
    ensures r != m
  {
    var r := m[code := (if code in m then m[code] else []) + [x]];
    assert code in m ==> |r[code]| != |m[code]|;
    r
  }
}

=== FILE: orchestrator.dfy ===
/**
 * The driving loops of the trader: `run` (the strategy's close hook for
 * every position of one instrument that has money, then its open hook),
 * `run_buffer_opts` (executing what a filtering run set aside) and `end`
 * (a clearing sell for every position with money).
 *
 * The strategy is an input: two hooks that turn positions into
 * operations (the market data already bound into them) and its
 * close-transaction filter. The loops are written over an executor `f`,
 * one call of `execute`; the trader's own is `Exec(c, t)`, and what the
 * loops need of it is stated once (`Framed`, `KeepsInv`) and proved once
 * (`ExecLawful`). Every loop over the position dictionary walks the key
 * order as it was when the loop started and reads each position's
 * current value.
 */
module Orchestrator {
  import opened Wrappers
  import opened Types
  import opened Ledger
  import opened Engine
  import opened EngineLemmas

  /** The strategy as the trader calls it. */
  datatype Strategy = Strategy(
    close: Position -> seq<Operation>,      // strategy.close for one position; no operation is []
    open: seq<Position> -> seq<Operation>,  // strategy.open, given the instrument's positions with money
    allowCloseUid: Option<set<CloseUid>>)   // strategy.allow_close_uid

  /** Assumed of the strategy: positive fractions, and opens that never reach a close branch without a position. */
  ghost predicate StrategyOk(c: Config, s: Strategy) {
    && (forall p: Position, i :: 0 <= i < |s.close(p)| ==> OpOk(s.close(p)[i]))
    && (forall ps: seq<Position>, i :: 0 <= i < |s.open(ps)| ==>
          OpOk(s.open(ps)[i]) && SafeWithoutTarget(c, s.open(ps)[i]))
  }

  /** One call `execute(code, op, target)` on a book, at the given bar. */
  type Executor = (Book, Code, Operation, Option<Uid>, Bar) -> Book

  /** The trader's `execute` at clock `t`, on the states and operations it is written for; elsewhere the book stays. */
  ghost function Exec(c: Config, t: Clock): Executor {
    (b: Book, code: Code, op: Operation, target: Option<Uid>, bar: Bar) =>
      if Inv(c, b) && ExecPre(c, b, op, target, bar) then Execute(c, b, code, op, target, bar, t).book else b
  }

  /**
   * What a call of the executor leaves alone: the buffer and every key (keys
   * are only added), and for a sell the key order and every position but
   * the target.
   */
  ghost predicate Framed(f: Executor) {
    forall b: Book, code: Code, op: Operation, target: Option<Uid>, bar: Bar ::
      && b.positions.Keys <= f(b, code, op, target, bar).positions.Keys
      && f(b, code, op, target, bar).buffer == b.buffer
      && (op.action == Sell ==>
            && f(b, code, op, target, bar).positions.Keys == b.positions.Keys
            && f(b, code, op, target, bar).order == b.order
            && forall u :: u in b.positions && Some(u) != target ==>
                 f(b, code, op, target, bar).positions[u] == b.positions[u])
  }

  /** A call the executor is written for keeps the state invariant. */
  ghost predicate KeepsInv(c: Config, f: Executor) {
    forall b: Book, code: Code, op: Operation, target: Option<Uid>, bar: Bar ::
      Inv(c, b) && ExecPre(c, b, op, target, bar) ==> Inv(c, f(b, code, op, target, bar))
  }

  /** The trader's `execute` is framed and keeps the invariant. */
  lemma ExecLawful(c: Config, t: Clock)
    ensures Framed(Exec(c, t)) && KeepsInv(c, Exec(c, t))
  {
    var f := Exec(c, t);
    forall b: Book, code: Code, op: Operation, target: Option<Uid>, bar: Bar
      ensures Inv(c, b) && ExecPre(c, b, op, target, bar) ==>
        f(b, code, op, target, bar) == Execute(c, b, code, op, target, bar, t).book
      ensures !(Inv(c, b) && ExecPre(c, b, op, target, bar)) ==> f(b, code, op, target, bar) == b
    {
    }
    forall b: Book, code: Code, op: Operation, target: Option<Uid>, bar: Bar | Inv(c, b) && ExecPre(c, b, op, target, bar)
      ensures var r := Execute(c, b, code, op, target, bar, t).book;
        && Inv(c, r) && b.positions.Keys <= r.positions.Keys && r.buffer == b.buffer
        && (op.action == Sell ==>
              && r.positions.Keys == b.positions.Keys && r.order == b.order
              && forall u :: u in b.positions && Some(u) != target ==> r.positions[u] == b.positions[u])
    {
      ExecuteInv(c, b, code, op, target, bar, t);
    }
  }

  /** Applying the executor is running `execute` when the call is one it is written for. */
  lemma ExecApplies(c: Config, t: Clock, b: Book, code: Code, op: Operation, target: Option<Uid>, bar: Bar)
    requires Inv(c, b) && ExecPre(c, b, op, target, bar)
    ensures Exec(c, t)(b, code, op, target, bar) == Execute(c, b, code, op, target, bar, t).book
  {
  }

  /** The `begin_run_dt` gate: at or before that instant `run` does nothing. */
  predicate Gated(c: Config, t: Clock) {
    c.beginRun.Some? && c.beginRun.value >= t.now
  }

  /** Outside signal mode a strategy may name the close-transaction ids it lets through. */
  predicate CloseSkipped(c: Config, s: Strategy, op: Operation) {
    c.mode != Signal && s.allowCloseUid.Some? && op.closeUid !in s.allowCloseUid.value
  }

  /** The operations with their instrument overwritten, as `run` does before using them. */
  function Coded(ops: seq<Operation>, code: Code): (r: seq<Operation>)
    ensures |r| == |ops|
    ensures forall i :: 0 <= i < |ops| ==> r[i] == ops[i].(code := code)
  {
    if ops == [] then [] else [ops[0].(code := code)] + Coded(ops[1..], code)
  }

  /** Coding one more operation appends it. */
  lemma CodedSnoc(ops: seq<Operation>, k: nat, code: Code)
    requires k < |ops|
    ensures Coded(ops[..k + 1], code) == Coded(ops[..k], code) + [ops[k].(code := code)]
  {
    var l := Coded(ops[..k + 1], code);
    var r := Coded(ops[..k], code) + [ops[k].(code := code)];
    assert |l| == |r|;
    forall i | 0 <= i < |l| ensures l[i] == r[i] {
      assert ops[..k + 1][i] == ops[i];
    }
  }

  /** The close hook's operations for one position, each executed against it unless filtered out. */
  function CloseOps(c: Config, s: Strategy, f: Executor, b: Book, code: Code, uid: Uid,
                    ops: seq<Operation>, bar: Bar): Book
    decreases |ops|
  {
    if ops == [] then b
    else
      var op := ops[0].(code := code);
      var b1 := if CloseSkipped(c, s, op) then b else f(b, code, op, Some(uid), bar);
      CloseOps(c, s, f, b1, code, uid, ops[1..], bar)
  }

  /**
   * The first loop of `run`: every position of `code` with money is handed
   * to the close hook. (A listed key is always present: keys are never
   * removed during the loop.)
   */
  function CloseLoop(c: Config, s: Strategy, f: Executor, b: Book, code: Code, uids: seq<Uid>, bar: Bar): Book
    decreases |uids|
  {
    if uids == [] then b
    else
      var u := uids[0];
      var b1 := if u in b.positions && b.positions[u].code == code && b.positions[u].balance != 0.0
                then CloseOps(c, s, f, b, code, u, s.close(b.positions[u]), bar) else b;
      CloseLoop(c, s, f, b1, code, uids[1..], bar)
  }

  /** The opens executed one after the other, without a target. */
  function ExecOpens(f: Executor, b: Book, code: Code, ops: seq<Operation>, bar: Bar): Book
    decreases |ops|
  {
    if ops == [] then b
    else ExecOpens(f, f(b, code, ops[0].(code := code), None, bar), code, ops[1..], bar)
  }

  /**
   * The second loop of `run`: in filter mode each open is set aside in the
   * buffer, otherwise each is executed without a target (the mode is fixed
   * for the whole loop).
   */
  function OpenOps(f: Executor, b: Book, code: Code, ops: seq<Operation>, isFilter: bool, bar: Bar): Book {
    if isFilter then b.(buffer := b.buffer + Coded(ops, code)) else ExecOpens(f, b, code, ops, bar)
  }

  /** The book after the close loop: what the open hook is shown. */
  function AfterCloses(c: Config, s: Strategy, f: Executor, b: Book, code: Code, bar: Bar): Book {
    CloseLoop(c, s, f, b, code, b.order, bar)
  }

  /** The opens the strategy issues on the positions the closes left. */
  function Opens(c: Config, s: Strategy, f: Executor, b: Book, code: Code, bar: Bar): seq<Operation> {
    var b1 := AfterCloses(c, s, f, b, code, bar);
    s.open(LiveOfCode(b1.positions, b1.order, code))
  }

  /** run: closes first, then opens on what the closes left, then drop the positions without money. */
  function Run(c: Config, s: Strategy, f: Executor, b: Book, code: Code, isFilter: bool, bar: Bar, t: Clock): (r: Book)
    ensures Gated(c, t) ==> r == b
    ensures !Gated(c, t) ==> forall u :: u in r.positions ==> r.positions[u].balance != 0.0
  {
    if Gated(c, t) then b
    else
      var b1 := AfterCloses(c, s, f, b, code, bar);
      Prune(OpenOps(f, b1, code, Opens(c, s, f, b, code, bar), isFilter, bar))
  }

  /**
   * A filtering run changes the books only through its closes: cash, fees,
   * order log, history and statistics are those the close loop left, and
   * the buffer gains the opens in the order the strategy gave them.
   */
  lemma RunFilterDefers(c: Config, s: Strategy, f: Executor, b: Book, code: Code, bar: Bar, t: Clock)
    requires !Gated(c, t)
    ensures var b1 := AfterCloses(c, s, f, b, code, bar);
      var r := Run(c, s, f, b, code, true, bar, t);
      && r.buffer == b1.buffer + Coded(Opens(c, s, f, b, code, bar), code)
      && r.balance == b1.balance && r.feeTotal == b1.feeTotal && r.orders == b1.orders
      && r.history == b1.history && r.results == b1.results
  {
  }

  /** The close hook's operations keep the keys and the buffer. */
  lemma {:induction false} CloseOpsFrame(c: Config, s: Strategy, f: Executor, b: Book, code: Code, uid: Uid,
                                         ops: seq<Operation>, bar: Bar)
    requires Framed(f)
    ensures var r := CloseOps(c, s, f, b, code, uid, ops, bar);
      && b.positions.Keys <= r.positions.Keys && r.buffer == b.buffer
    decreases |ops|
  {
    if ops != [] {
      var op := ops[0].(code := code);
      var b1 := if CloseSkipped(c, s, op) then b else f(b, code, op, Some(uid), bar);
      CloseOpsFrame(c, s, f, b1, code, uid, ops[1..], bar);
    }
  }

  /** The close loop keeps the keys and the buffer. */
  lemma {:induction false} CloseLoopFrame(c: Config, s: Strategy, f: Executor, b: Book, code: Code, uids: seq<Uid>, bar: Bar)
    requires Framed(f)
    ensures var r := CloseLoop(c, s, f, b, code, uids, bar);
      && b.positions.Keys <= r.positions.Keys && r.buffer == b.buffer
    decreases |uids|
  {
    if uids != [] {
      var u := uids[0];
      if u in b.positions && b.positions[u].code == code && b.positions[u].balance != 0.0 {
        CloseOpsFrame(c, s, f, b, code, u, s.close(b.positions[u]), bar);
        CloseLoopFrame(c, s, f, CloseOps(c, s, f, b, code, u, s.close(b.positions[u]), bar), code, uids[1..], bar);
      } else {
        CloseLoopFrame(c, s, f, b, code, uids[1..], bar);
      }
    }
  }

  /** Executing the opens keeps the buffer. */
  lemma {:induction false} ExecOpensKeepBuffer(f: Executor, b: Book, code: Code, ops: seq<Operation>, bar: Bar)
    requires Framed(f)
    ensures ExecOpens(f, b, code, ops, bar).buffer == b.buffer
    decreases |ops|
  {
    if ops != [] {
      ExecOpensKeepBuffer(f, f(b, code, ops[0].(code := code), None, bar), code, ops[1..], bar);
    }
  }

  /** A run that executes its opens leaves the buffer as it was. */
  lemma RunKeepsBuffer(c: Config, s: Strategy, f: Executor, b: Book, code: Code, bar: Bar, t: Clock)
    requires Framed(f)
    ensures Run(c, s, f, b, code, false, bar, t).buffer == b.buffer
  {
    if !Gated(c, t) {
      CloseLoopFrame(c, s, f, b, code, b.order, bar);
      ExecOpensKeepBuffer(f, AfterCloses(c, s, f, b, code, bar), code, Opens(c, s, f, b, code, bar), bar);
    }
  }

  /** The close hook only ever issues sells. */
  ghost predicate ClosesOnlySell(s: Strategy) {
    forall p: Position, i :: 0 <= i < |s.close(p)| ==> s.close(p)[i].action == Sell
  }

  /** Sells against one position leave every other position as it was. */
  lemma {:induction false} CloseOpsOnTarget(c: Config, s: Strategy, f: Executor, b: Book, code: Code, uid: Uid,
                                            ops: seq<Operation>, bar: Bar)
    requires Framed(f)
    requires forall i :: 0 <= i < |ops| ==> ops[i].action == Sell
    ensures var r := CloseOps(c, s, f, b, code, uid, ops, bar);
      forall v :: v in b.positions && v != uid ==> v in r.positions && r.positions[v] == b.positions[v]
    decreases |ops|
  {
    if ops != [] {
      var op := ops[0].(code := code);
      var b1 := if CloseSkipped(c, s, op) then b else f(b, code, op, Some(uid), bar);
      CloseOpsOnTarget(c, s, f, b1, code, uid, ops[1..], bar);
    }
  }

  /** With a sell-only close hook, the close loop leaves every position of another instrument as it was. */
  lemma {:induction false} CloseLoopStaysOnCode(c: Config, s: Strategy, f: Executor, b: Book, code: Code,
                                                uids: seq<Uid>, bar: Bar)
    requires Framed(f) && ClosesOnlySell(s)
    ensures var r := CloseLoop(c, s, f, b, code, uids, bar);
      forall v :: v in b.positions && b.positions[v].code != code ==> v in r.positions && r.positions[v] == b.positions[v]
    decreases |uids|
  {
    if uids != [] {
      var u := uids[0];
      if u in b.positions && b.positions[u].code == code && b.positions[u].balance != 0.0 {
        CloseOpsOnTarget(c, s, f, b, code, u, s.close(b.positions[u]), bar);
        CloseLoopStaysOnCode(c, s, f, CloseOps(c, s, f, b, code, u, s.close(b.positions[u]), bar), code, uids[1..], bar);
      } else {
        CloseLoopStaysOnCode(c, s, f, b, code, uids[1..], bar);
      }
    }
  }

  lemma {:induction false} CloseOpsInv(c: Config, s: Strategy, f: Executor, b: Book, code: Code, uid: Uid,
                                       ops: seq<Operation>, bar: Bar)
    requires Framed(f) && KeepsInv(c, f)
    requires Inv(c, b) && uid in b.positions && bar.close > 0.0
    requires forall i :: 0 <= i < |ops| ==> OpOk(ops[i])
    ensures Inv(c, CloseOps(c, s, f, b, code, uid, ops, bar))
    decreases |ops|
  {
    if ops != [] {
      var op := ops[0].(code := code);
      assert OpOk(ops[0]);
      assert ExecPre(c, b, op, Some(uid), bar);
      var b1 := if CloseSkipped(c, s, op) then b else f(b, code, op, Some(uid), bar);
      CloseOpsInv(c, s, f, b1, code, uid, ops[1..], bar);
    }
  }

  lemma {:induction false} CloseLoopInv(c: Config, s: Strategy, f: Executor, b: Book, code: Code, uids: seq<Uid>, bar: Bar)
    requires Framed(f) && KeepsInv(c, f) && StrategyOk(c, s)
    requires Inv(c, b) && bar.close > 0.0
    ensures Inv(c, CloseLoop(c, s, f, b, code, uids, bar))
    decreases |uids|
  {
    if uids != [] {
      var u := uids[0];
      if u in b.positions && b.positions[u].code == code && b.positions[u].balance != 0.0 {
        CloseOpsInv(c, s, f, b, code, u, s.close(b.positions[u]), bar);
        CloseLoopInv(c, s, f, CloseOps(c, s, f, b, code, u, s.close(b.positions[u]), bar), code, uids[1..], bar);
      } else {
        CloseLoopInv(c, s, f, b, code, uids[1..], bar);
      }
    }
  }

  /** Setting admissible operations aside keeps the invariant. */
  lemma BufferInv(c: Config, b: Book, ops: seq<Operation>)
    requires Inv(c, b)
    requires forall i :: 0 <= i < |ops| ==> OpOk(ops[i]) && SafeWithoutTarget(c, ops[i])
    ensures Inv(c, b.(buffer := b.buffer + ops))
  {
    var r := b.(buffer := b.buffer + ops);
    assert r.positions == b.positions && r.order == b.order && r.results == b.results;
    forall i | 0 <= i < |r.buffer| ensures OpOk(r.buffer[i]) && SafeWithoutTarget(c, r.buffer[i]) {
      if i < |b.buffer| { assert r.buffer[i] == b.buffer[i]; } else { assert r.buffer[i] == ops[i - |b.buffer|]; }
    }
  }

  lemma {:induction false} ExecOpensInv(c: Config, f: Executor, b: Book, code: Code, ops: seq<Operation>, bar: Bar)
    requires Framed(f) && KeepsInv(c, f)
    requires Inv(c, b) && bar.close > 0.0
    requires forall i :: 0 <= i < |ops| ==> OpOk(ops[i]) && SafeWithoutTarget(c, ops[i])
    ensures Inv(c, ExecOpens(f, b, code, ops, bar))
    decreases |ops|
  {
    if ops != [] {
      var op := ops[0].(code := code);
      assert OpOk(ops[0]) && SafeWithoutTarget(c, ops[0]);
      assert ExecPre(c, b, op, None, bar);
      ExecOpensInv(c, f, f(b, code, op, None, bar), code, ops[1..], bar);
    }
  }

  lemma OpenOpsInv(c: Config, f: Executor, b: Book, code: Code, ops: seq<Operation>, isFilter: bool, bar: Bar)
    requires Framed(f) && KeepsInv(c, f)
    requires Inv(c, b) && bar.close > 0.0
    requires forall i :: 0 <= i < |ops| ==> OpOk(ops[i]) && SafeWithoutTarget(c, ops[i])
    ensures Inv(c, OpenOps(f, b, code, ops, isFilter, bar))
  {
    if isFilter {
      var coded := Coded(ops, code);
      forall i | 0 <= i < |coded| ensures OpOk(coded[i]) && SafeWithoutTarget(c, coded[i]) {
        assert OpOk(ops[i]) && SafeWithoutTarget(c, ops[i]);
      }
      BufferInv(c, b, coded);
    } else {
      ExecOpensInv(c, f, b, code, ops, bar);
    }
  }

  /** run keeps the invariant of the trader's state. */
  lemma RunInv(c: Config, s: Strategy, f: Executor, b: Book, code: Code, isFilter: bool, bar: Bar, t: Clock)
    requires Framed(f) && KeepsInv(c, f) && StrategyOk(c, s)
    requires Inv(c, b) && bar.close > 0.0
    ensures Inv(c, Run(c, s, f, b, code, isFilter, bar, t))
  {
    if !Gated(c, t) {
      var b1 := AfterCloses(c, s, f, b, code, bar);
      CloseLoopInv(c, s, f, b, code, b.order, bar);
      OpenOpsInv(c, f, b1, code, Opens(c, s, f, b, code, bar), isFilter, bar);
      PruneInv(c, OpenOps(f, b1, code, Opens(c, s, f, b, code, bar), isFilter, bar));
    }
  }

  /** Every buffered operation has a positive price to fill at. */
  predicate Quoted(quote: Code -> Bar, ops: seq<Operation>) {
    forall i :: 0 <= i < |ops| ==> quote(ops[i].code).close > 0.0
  }

  /** Execute the operations one after the other, each on its own instrument and without a target. */
  function Drain(f: Executor, b: Book, ops: seq<Operation>, quote: Code -> Bar): Book
    decreases |ops|
  {
    if ops == [] then b
    else Drain(f, f(b, ops[0].code, ops[0], None, quote(ops[0].code)), ops[1..], quote)
  }

  /** run_buffer_opts: execute the buffer in order, then empty it. */
  function RunBufferOpts(f: Executor, b: Book, quote: Code -> Bar): (r: Book)
    ensures r.buffer == []
  {
    Drain(f, b, b.buffer, quote).(buffer := [])
  }

  /** Draining two lists is draining their concatenation: the buffer is worked through strictly in order. */
  lemma {:induction false} DrainInOrder(f: Executor, b: Book, xs: seq<Operation>, ys: seq<Operation>, quote: Code -> Bar)
    ensures Drain(f, b, xs + ys, quote) == Drain(f, Drain(f, b, xs, quote), ys, quote)
    decreases |xs|
  {
    if xs != [] {
      DrainInOrder(f, f(b, xs[0].code, xs[0], None, quote(xs[0].code)), xs[1..], ys, quote);
      assert (xs + ys)[0] == xs[0] && (xs + ys)[1..] == xs[1..] + ys;
    } else {
      assert xs + ys == ys;
    }
  }

  lemma {:induction false} DrainInv(c: Config, f: Executor, b: Book, ops: seq<Operation>, quote: Code -> Bar)
    requires Framed(f) && KeepsInv(c, f)
    requires Inv(c, b) && Quoted(quote, ops)
    requires forall i :: 0 <= i < |ops| ==> OpOk(ops[i]) && SafeWithoutTarget(c, ops[i])
    ensures Inv(c, Drain(f, b, ops, quote))
    decreases |ops|
  {
    if ops != [] {
      assert ExecPre(c, b, ops[0], None, quote(ops[0].code));
      DrainInv(c, f, f(b, ops[0].code, ops[0], None, quote(ops[0].code)), ops[1..], quote);
    }
  }

  /** run_buffer_opts keeps the invariant of the trader's state. */
  lemma RunBufferOptsInv(c: Config, f: Executor, b: Book, quote: Code -> Bar)
    requires Framed(f) && KeepsInv(c, f)
    requires Inv(c, b) && Quoted(quote, b.buffer)
    ensures Inv(c, RunBufferOpts(f, b, quote))
  {
    DrainInv(c, f, b, b.buffer, quote);
  }

  /** The operation `end` issues for a position: a clearing sell of its category; `blank` holds the remaining defaults. */
  function ExitOp(blank: Operation, p: Position): Operation {
    blank.(action := Sell, mmd := p.mmd, msg := EXIT_MSG, code := p.code, closeUid := CLEAR)
  }

  /** The loop of `end`: a clearing sell for each position with money, on that position's own bar. */
  function EndLoop(f: Executor, b: Book, uids: seq<Uid>, quote: Code -> Bar, blank: Operation): Book
    decreases |uids|
  {
    if uids == [] then b
    else
      var u := uids[0];
      var b1 := if u in b.positions && b.positions[u].balance > 0.0
                then f(b, b.positions[u].code, ExitOp(blank, b.positions[u]), Some(u), quote(b.positions[u].code))
                else b;
      EndLoop(f, b1, uids[1..], quote, blank)
  }

  /** end: clear out every position. */
  function End(f: Executor, b: Book, quote: Code -> Bar, blank: Operation): Book {
    EndLoop(f, b, b.order, quote, blank)
  }

  /** One planned execution: an operation against a position. */
  datatype Step = Step(uid: Uid, op: Operation)

  /** The clearing sells of `end`, decided on the positions as they were when it started. */
  function ExitPlan(ps: map<Uid, Position>, uids: seq<Uid>, blank: Operation): (r: seq<Step>)
    ensures forall i :: 0 <= i < |r| ==>
      && r[i].uid in uids && r[i].uid in ps && ps[r[i].uid].balance > 0.0
      && r[i].op == ExitOp(blank, ps[r[i].uid])
    ensures forall j :: 0 <= j < |uids| && uids[j] in ps && ps[uids[j]].balance > 0.0 ==>
      Step(uids[j], ExitOp(blank, ps[uids[j]])) in r
    ensures |r| <= |uids|
  {
    if uids == [] then []
    else
      var rest := ExitPlan(ps, uids[1..], blank);
      assert forall j :: 1 <= j < |uids| ==> uids[j] == uids[1..][j - 1];
      var u := uids[0];
      if u in ps && ps[u].balance > 0.0 then [Step(u, ExitOp(blank, ps[u]))] + rest else rest
  }

  /** The positions a plan acts on, step by step. */
  function Targets(r: seq<Step>): (u: seq<Uid>)
    ensures |u| == |r| && forall i :: 0 <= i < |r| ==> u[i] == r[i].uid
  {
    seq(|r|, i requires 0 <= i < |r| => r[i].uid)
  }

  lemma TargetsAppend(xs: seq<Step>, ys: seq<Step>)
    ensures Targets(xs + ys) == Targets(xs) + Targets(ys)
  {
    assert forall i :: 0 <= i < |xs + ys| ==> Targets(xs + ys)[i] == (Targets(xs) + Targets(ys))[i];
  }

  lemma ExitPlanCons(ps: map<Uid, Position>, uids: seq<Uid>, blank: Operation)
    requires uids != []
    ensures var keep := uids[0] in ps && ps[uids[0]].balance > 0.0;
      Targets(ExitPlan(ps, uids, blank)) == (if keep then [uids[0]] else []) + Targets(ExitPlan(ps, uids[1..], blank))
  {
    var keep := uids[0] in ps && ps[uids[0]].balance > 0.0;
    var head := if keep then [Step(uids[0], ExitOp(blank, ps[uids[0]]))] else [];
    assert ExitPlan(ps, uids, blank) == head + ExitPlan(ps, uids[1..], blank);
    TargetsAppend(head, ExitPlan(ps, uids[1..], blank));
    assert Targets(head) == if keep then [uids[0]] else [];
  }

  /** The plan follows key order: one step per kept key, picked at strictly increasing places of `uids`. */
  lemma {:induction false} ExitPlanKeepsOrder(ps: map<Uid, Position>, uids: seq<Uid>, blank: Operation)
    ensures exists idx :: KeysAt(idx, Targets(ExitPlan(ps, uids, blank)), uids)
  {
    if uids == [] {
      assert KeysAt([], Targets(ExitPlan(ps, uids, blank)), uids);
    } else {
      ExitPlanKeepsOrder(ps, uids[1..], blank);
      var rest := Targets(ExitPlan(ps, uids[1..], blank));
      var idx :| KeysAt(idx, rest, uids[1..]);
      var keep := uids[0] in ps && ps[uids[0]].balance > 0.0;
      KeysAtCons(uids, keep, rest, idx);
      ExitPlanCons(ps, uids, blank);
      assert KeysAt(PickTail(keep, idx), Targets(ExitPlan(ps, uids, blank)), uids);
    }
  }

  /** Execute planned operations one after the other, each on its position's instrument. */
  function Replay(f: Executor, b: Book, steps: seq<Step>, quote: Code -> Bar): Book
    decreases |steps|
  {
    if steps == [] then b
    else
      var st := steps[0];
      Replay(f, f(b, st.op.code, st.op, Some(st.uid), quote(st.op.code)), steps[1..], quote)
  }

  /** The loop of `end` over positions that still hold their starting values follows the plan. */
  lemma {:induction false} EndLoopFollowsPlan(f: Executor, b: Book, ps: map<Uid, Position>, uids: seq<Uid>,
                                              quote: Code -> Bar, blank: Operation)
    requires Framed(f) && Distinct(uids)
    requires forall i :: 0 <= i < |uids| ==> (uids[i] in b.positions <==> uids[i] in ps)
    requires forall i :: 0 <= i < |uids| && uids[i] in ps ==> b.positions[uids[i]] == ps[uids[i]]
    ensures EndLoop(f, b, uids, quote, blank) == Replay(f, b, ExitPlan(ps, uids, blank), quote)
    decreases |uids|
  {
    if uids != [] {
      var u := uids[0];
      var rest := uids[1..];
      assert forall i :: 0 <= i < |rest| ==> rest[i] == uids[i + 1] && rest[i] != u;
      assert Distinct(rest);
      if u in b.positions && b.positions[u].balance > 0.0 {
        var p := b.positions[u];
        var b1 := f(b, p.code, ExitOp(blank, p), Some(u), quote(p.code));
        EndLoopFollowsPlan(f, b1, ps, rest, quote, blank);
      } else {
        EndLoopFollowsPlan(f, b, ps, rest, quote, blank);
      }
    }
  }

  /**
   * end executes exactly the clearing sells of the plan made from the
   * positions at its start: one per position with money, in dictionary
   * order, each against that position.
   */
  lemma EndIsPlanned(f: Executor, b: Book, quote: Code -> Bar, blank: Operation)
    requires Framed(f) && OrderMatches(b.positions, b.order)
    ensures End(f, b, quote, blank) == Replay(f, b, ExitPlan(b.positions, b.order, blank), quote)
  {
    EndLoopFollowsPlan(f, b, b.positions, b.order, quote, blank);
  }

  lemma {:induction false} EndLoopInv(c: Config, f: Executor, b: Book, uids: seq<Uid>, quote: Code -> Bar, blank: Operation)
    requires Framed(f) && KeepsInv(c, f)
    requires Inv(c, b) && OpOk(blank)
    ensures Inv(c, EndLoop(f, b, uids, quote, blank))
    decreases |uids|
  {
    if uids != [] {
      var u := uids[0];
      if u in b.positions && b.positions[u].balance > 0.0 {
        var p := b.positions[u];
        assert ExecPre(c, b, ExitOp(blank, p), Some(u), quote(p.code));
        EndLoopInv(c, f, f(b, p.code, ExitOp(blank, p), Some(u), quote(p.code)), uids[1..], quote, blank);
      } else {
        EndLoopInv(c, f, b, uids[1..], quote, blank);
      }
    }
  }

  /** end keeps the invariant of the trader's state. */
  lemma EndInv(c: Config, f: Executor, b: Book, quote: Code -> Bar, blank: Operation)
    requires Framed(f) && KeepsInv(c, f)
    requires Inv(c, b) && OpOk(blank)
    ensures Inv(c, End(f, b, quote, blank))
  {
    EndLoopInv(c, f, b, b.order, quote, blank);
  }
}

=== FILE: sizing.dfy ===
/**
 * The cash routines of the trader: how an open is sized and paid for
 * (open_buy / open_sell) and what a close pays back (close_buy /
 * close_sell), in the fixed-notional "signal" mode and the funded modes.
 *
 * Every product or quotient of two quantities is named (`Notional`,
 * `Portion`, `Fee`, `Percent`, `Budget`), so that the engine reasons
 * about these values by name and the arithmetic stays in this module.
 */
module Sizing {
  import opened Wrappers
  import opened Types

  /** `x * rate`: the part of a holding that a fraction stands for. */
  function Portion(x: real, rate: real): (r: real)
    ensures 0.0 <= x && 0.0 <= rate ==> 0.0 <= r
    ensures 0.0 < x && 0.0 < rate ==> 0.0 < r
    ensures 0.0 <= x && 0.0 <= rate <= 1.0 ==> r <= x
  {
    x * rate
  }

  /** The fee on a traded value. */
  function Fee(x: real, feeRate: real): real {
    x * feeRate
  }

  /** `x` as a percentage of `base`. */
  function Percent(x: real, base: real): real
    requires base != 0.0
  {
    x / base * 100.0
  }

  /** An open either fails, or fills and leaves new cash and fee totals. */
  datatype Opening = Rejected | Opened(fill: Fill, cash: real, feeTotal: real)

  /** A close always fills; it leaves new cash and fee totals. */
  datatype Closing = Closing(fill: Fill, cash: real, feeTotal: real)

  /** The default funded notional: the cash of one free slot, less friction, scaled by the fraction. */
  function Budget(cash: real, maxPos: int, live: nat, posRate: real): real
    requires live < maxPos
  {
    cash / (maxPos - live) as real * FRICTION * Min(1.0, posRate)
  }

  /** Buying `use / price` at `price` costs `use`, and the amount has the sign of `use`. */
  lemma BuyFor(use: real, price: real)
    requires price > 0.0
    ensures Notional(Fill(price, use / price)) == use
    ensures use / price < 0.0 <==> use < 0.0
  {
  }

  /** A fill of a signal-mode open: the fixed notional, less friction, at the bar's close. */
  function SignalFill(posRate: real, close: real): (f: Fill)
    requires close > 0.0
    ensures f.price == close
    ensures Notional(f) == SIGNAL_NOTIONAL * FRICTION * Min(1.0, posRate)
    ensures 0.0 <= posRate ==> 0.0 <= f.amount
  {
    var use := SIGNAL_NOTIONAL * Min(1.0, posRate);
    BuyFor(use * FRICTION, close);
    assert use / close * FRICTION == use * FRICTION / close;
    Fill(close, use / close * FRICTION)
  }

  /**
   * open_buy and open_sell (the two differ only in their log line):
   * `live` is the number of live positions, `qty` the caller-supplied
   * quantity (never supplied by `execute`).
   */
  function Open(mode: Mode, feeRate: real, maxPos: int, cash: real, feeTotal: real,
                live: nat, posRate: real, close: real, qty: Option<real>): (r: Opening)
    requires close > 0.0
    ensures r.Opened? ==> r.fill.price == close
    ensures r.Opened? && 0.0 <= posRate ==> 0.0 <= r.fill.amount
    ensures mode == Signal ==>
      && r.Opened? && r.cash == cash && r.feeTotal == feeTotal
      && Notional(r.fill) == SIGNAL_NOTIONAL * FRICTION * Min(1.0, posRate)
    ensures mode != Signal && r.Opened? ==>
      && live < maxPos && 0.0 <= r.fill.amount && Notional(r.fill) <= cash
      && r.cash == cash - (Notional(r.fill) + Fee(Notional(r.fill), feeRate))
      && r.feeTotal == feeTotal + Fee(Notional(r.fill), feeRate)
    ensures mode != Signal && qty.None? ==>
      && (r.Opened? <==> live < maxPos && 0.0 <= Budget(cash, maxPos, live, posRate) <= cash)
      && (r.Opened? ==> Notional(r.fill) == Budget(cash, maxPos, live, posRate))
    ensures mode != Signal && qty.Some? ==>
      && (r.Opened? <==> live < maxPos && 0.0 <= qty.value && Notional(Fill(close, qty.value)) <= cash)
      && (r.Opened? ==> r.fill.amount == qty.value)
  {
    if mode == Signal then
      Opened(SignalFill(posRate, close), cash, feeTotal)
    else if live >= maxPos then
      Rejected
    else
      var use := if qty.None? then Budget(cash, maxPos, live, posRate) else Notional(Fill(close, qty.value));
      var amount := if qty.None? then use / close else qty.value;
      BuyFor(use, close);
      assert Notional(Fill(close, amount)) == use;
      if amount < 0.0 then Rejected
      else if use > cash then Rejected
      else
        var fee := Fee(use, feeRate);
        Opened(Fill(close, amount), cash - (use + fee), feeTotal + fee)
  }

  /** The execution price of a close: the stop price when one is set, else the bar's close. */
  function ClosePrice(lossPrice: real, close: real): real {
    if lossPrice != 0.0 then lossPrice else close
  }

  /** close_buy: sell `held * rate` of a long position opened at `entry`. */
  function CloseLongFunds(mode: Mode, feeRate: real, cash: real, feeTotal: real,
                          held: real, entry: real, rate: real, lossPrice: real, close: real): Closing
  {
    var fill := Fill(ClosePrice(lossPrice, close), Portion(held, rate));
    if mode == Signal then
      Closing(fill, cash + (Notional(fill) - Notional(fill.(price := entry))), feeTotal)
    else
      var proceeds := Notional(fill);
      var fee := Fee(proceeds, feeRate);
      Closing(fill, cash + (proceeds - fee), feeTotal + fee)
  }

  /** close_sell: buy back `held * rate` of a short position opened at `entry`. */
  function CloseShortFunds(mode: Mode, feeRate: real, cash: real, feeTotal: real,
                           held: real, entry: real, rate: real, lossPrice: real, close: real): Closing
  {
    var fill := Fill(ClosePrice(lossPrice, close), Portion(held, rate));
    if mode == Signal then
      Closing(fill, cash + (Notional(fill.(price := entry)) - Notional(fill)), feeTotal)
    else
      var cost := Notional(fill);
      var margin := Notional(fill.(price := entry));
      var profit := margin - cost;
      var fee := Fee(cost, feeRate);
      Closing(fill, cash + (margin + profit - fee), feeTotal + fee)
  }
}

=== FILE: trader.dfy ===
/**
 * The back-testing trader as an object: its fields are the books the
 * methods update in place, and each method is proved to leave exactly the
 * state the value-level definitions of the other modules describe.
 */
module Trader {
  import opened Wrappers
  import opened Types
  import opened Ledger
  import Engine
  import opened EngineLemmas
  import opened Orchestrator
  import opened Valuation

  /** The invariant of the first loop of update_position_record: the totals so far plus those of the keys left make the whole. */
  ghost predicate Marking(ps: map<Uid, Position>, uids: seq<Uid>, quote: Code -> Bar, profit: real, hold: real, total: Totals)
    requires Markable(ps)
  {
    var rest := MarkAll(ps, uids, quote);
    rest.ps == total.ps && profit + rest.profit == total.profit && hold + rest.hold == total.hold
  }

  class BackTestTrader {
    const c: Config
    var balance: real
    var feeTotal: real
    var positions: map<Uid, Position>
    var order: seq<Uid>                              // insertion order of `positions`
    var history: map<Code, seq<Position>>
    var orders: map<Code, seq<Order>>
    var results: map<Mmd, Stats>
    var buffer: seq<Operation>
    var holdProfitHistory: map<Instant, real>
    var balanceHistory: map<Instant, real>
    var positionsBalanceHistory: map<Instant, map<string, real>>

    /** The fields as one value. */
    function State(): Book
      reads this
    {
      Book(balance, feeTotal, positions, order, history, orders, results, buffer,
           holdProfitHistory, balanceHistory, positionsBalanceHistory)
    }

    ghost predicate Valid()
      reads this
    {
      Inv(c, State())
    }

    /** A fresh trader: cash only in trade mode, no positions, zeroed statistics for every category. */
    constructor(c: Config, initBalance: real)
      requires ConfigOk(c)
      ensures this.c == c && State() == InitialBook(c, initBalance)
      ensures Valid()
    {
      this.c := c;
      balance := if c.mode == Trade then initBalance else 0.0;
      feeTotal := 0.0;
      positions := map[];
      order := [];
      history := map[];
      orders := map[];
      results := INITIAL_RESULTS;
      buffer := [];
      holdProfitHistory := map[];
      balanceHistory := map[];
      positionsBalanceHistory := map[];
      new;
      InitialInv(c, initBalance);
    }

    /** Overwrite every field with the given book. */
    method Load(b: Book)
      modifies this
      ensures State() == b
    {
      balance, feeTotal, positions, order := b.balance, b.feeTotal, b.positions, b.order;
      history, orders, results, buffer := b.history, b.orders, b.results, b.buffer;
      holdProfitHistory, balanceHistory, positionsBalanceHistory :=
        b.holdProfitHistory, b.balanceHistory, b.positionsBalanceHistory;
    }

    /** execute: one operation, against a position or (for an open) none. */
    method Execute(code: Code, op: Operation, target: Option<Uid>, bar: Bar, t: Clock) returns (ok: bool)
      requires Valid() && Engine.ExecPre(c, State(), op, target, bar)
      modifies this
      ensures State() == Exec(c, t)(old(State()), code, op, target, bar)
      ensures ok == Engine.Execute(c, old(State()), code, op, target, bar, t).ok
      ensures Valid()
      ensures old(positions).Keys <= positions.Keys && buffer == old(buffer)
    {
      var out := Engine.Execute(c, State(), code, op, target, bar, t);
      ExecuteInv(c, State(), code, op, target, bar, t);
      ExecApplies(c, t, State(), code, op, target, bar);
      Load(out.book);
      ok := out.ok;
    }

    /** The close hook's operations for one position, in order. */
    method CloseWith(s: Strategy, code: Code, u: Uid, ops: seq<Operation>, bar: Bar, t: Clock)
      requires Valid() && u in positions && bar.close > 0.0
      requires forall i :: 0 <= i < |ops| ==> Ledger.OpOk(ops[i])
      modifies this
      ensures State() == CloseOps(c, s, Exec(c, t), old(State()), code, u, ops, bar)
      ensures Valid()
    {
      ghost var b0 := State();
      var j := 0;
      while j < |ops|
        invariant 0 <= j <= |ops|
        invariant Valid() && u in positions
        invariant CloseOps(c, s, Exec(c, t), State(), code, u, ops[j..], bar)
               == CloseOps(c, s, Exec(c, t), b0, code, u, ops, bar)
      {
        var op := ops[j].(code := code);
        assert ops[j..][1..] == ops[j + 1..];
        if !CloseSkipped(c, s, op) {
          var _ := Execute(code, op, Some(u), bar, t);
        }
        j := j + 1;
      }
    }

    /** The first loop of run: the close hook on every position of `code` with money, in dictionary order. */
    method CloseAll(s: Strategy, code: Code, bar: Bar, t: Clock)
      requires Valid() && StrategyOk(c, s) && bar.close > 0.0
      modifies this
      ensures State() == AfterCloses(c, s, Exec(c, t), old(State()), code, bar)
      ensures Valid()
    {
      ghost var b0 := State();
      var uids := order;
      var i := 0;
      while i < |uids|
        invariant 0 <= i <= |uids|
        invariant Valid()
        invariant CloseLoop(c, s, Exec(c, t), State(), code, uids[i..], bar) == AfterCloses(c, s, Exec(c, t), b0, code, bar)
      {
        var u := uids[i];
        assert uids[i..][1..] == uids[i + 1..];
        if u in positions && positions[u].code == code && positions[u].balance != 0.0 {
          CloseWith(s, code, u, s.close(positions[u]), bar, t);
        }
        i := i + 1;
      }
    }

    /** The second loop of run in filter mode: set the opens aside in the buffer. */
    method BufferOpens(code: Code, opens: seq<Operation>)
      requires Valid()
      requires forall i :: 0 <= i < |opens| ==> Ledger.OpOk(opens[i]) && SafeWithoutTarget(c, opens[i])
      modifies this`buffer
      ensures buffer == old(buffer) + Coded(opens, code)
      ensures Valid()
    {
      ghost var b1 := State();
      var k := 0;
      while k < |opens|
        invariant 0 <= k <= |opens|
        invariant buffer == b1.buffer + Coded(opens[..k], code)
      {
        CodedSnoc(opens, k, code);
        buffer := buffer + [opens[k].(code := code)];
        k := k + 1;
      }
      assert opens[..k] == opens;
      BufferInv(c, b1, Coded(opens, code));
    }

    /** The second loop of run otherwise: execute each open without a target. */
    method ExecuteOpens(code: Code, opens: seq<Operation>, bar: Bar, t: Clock)
      requires Valid() && bar.close > 0.0
      requires forall i :: 0 <= i < |opens| ==> Ledger.OpOk(opens[i]) && SafeWithoutTarget(c, opens[i])
      modifies this
      ensures State() == ExecOpens(Exec(c, t), old(State()), code, opens, bar)
      ensures Valid()
    {
      ghost var b1 := State();
      var k := 0;
      while k < |opens|
        invariant 0 <= k <= |opens|
        invariant Valid()
        invariant ExecOpens(Exec(c, t), State(), code, opens[k..], bar) == ExecOpens(Exec(c, t), b1, code, opens, bar)
      {
        assert opens[k..][1..] == opens[k + 1..];
        var _ := Execute(code, opens[k].(code := code), None, bar, t);
        k := k + 1;
      }
    }

    /** run: the close hook on every position of `code`, then the open hook, then drop the positions without money. */
    method Run(s: Strategy, code: Code, isFilter: bool, bar: Bar, t: Clock)
      requires Valid() && StrategyOk(c, s) && bar.close > 0.0
      modifies this
      ensures State() == Orchestrator.Run(c, s, Exec(c, t), old(State()), code, isFilter, bar, t)
      ensures Valid()
    {
      if Gated(c, t) {
        return;
      }
      ghost var b0 := State();
      CloseAll(s, code, bar, t);
      var opens := s.open(LiveOfCode(positions, order, code));
      assert opens == Opens(c, s, Exec(c, t), b0, code, bar);
      if isFilter {
        BufferOpens(code, opens);
      } else {
        ExecuteOpens(code, opens, bar, t);
      }
      PruneInv(c, State());
      order := LiveOrder(positions, order);
      positions := LiveMap(positions);
    }

    /** run_buffer_opts: execute the buffered opens in order, then empty the buffer. */
    method RunBufferOpts(quote: Code -> Bar, t: Clock)
      requires Valid() && Quoted(quote, buffer)
      modifies this
      ensures State() == Orchestrator.RunBufferOpts(Exec(c, t), old(State()), quote)
      ensures Valid()
    {
      ghost var b0 := State();
      var ops := buffer;
      var i := 0;
      while i < |ops|
        invariant 0 <= i <= |ops|
        invariant Valid() && buffer == ops
        invariant Drain(Exec(c, t), State(), ops[i..], quote) == Drain(Exec(c, t), b0, ops, quote)
      {
        assert ops[i..][1..] == ops[i + 1..];
        var _ := Execute(ops[i].code, ops[i], None, quote(ops[i].code), t);
        i := i + 1;
      }
      BufferInv(c, State().(buffer := []), []);
      buffer := [];
    }

    /** end: a clearing sell for every position with money; `blank` holds the operation defaults. */
    method End(quote: Code -> Bar, blank: Operation, t: Clock)
      requires Valid() && Ledger.OpOk(blank)
      modifies this
      ensures State() == Orchestrator.End(Exec(c, t), old(State()), quote, blank)
      ensures Valid()
    {
      ghost var b0 := State();
      var uids := order;
      var i := 0;
      while i < |uids|
        invariant 0 <= i <= |uids|
        invariant Valid()
        invariant EndLoop(Exec(c, t), State(), uids[i..], quote, blank) == Orchestrator.End(Exec(c, t), b0, quote, blank)
      {
        var u := uids[i];
        assert uids[i..][1..] == uids[i + 1..];
        if u in positions && positions[u].balance > 0.0 {
          var p := positions[u];
          var _ := Execute(p.code, ExitOp(blank, p), Some(u), quote(p.code), t);
        }
        i := i + 1;
      }
    }

    /** The first loop of update_position_record: mark every position with money, summing profit and held notional. */
    method MarkPositions(quote: Code -> Bar) returns (profit: real, hold: real)
      requires Markable(positions)
      modifies this`positions
      ensures var m := MarkAll(old(positions), old(order), quote);
        positions == m.ps && profit == m.profit && hold == m.hold
    {
      ghost var total := MarkAll(positions, order, quote);
      var uids := order;
      profit, hold := 0.0, 0.0;
      var i := 0;
      while i < |uids|
        invariant 0 <= i <= |uids|
        invariant Markable(positions) && Marking(positions, uids[i..], quote, profit, hold, total)
      {
        profit, hold := MarkNext(uids[i..], quote, profit, hold, total);
        assert uids[i..][1..] == uids[i + 1..];
        i := i + 1;
      }
    }

    /** One turn of the first loop: mark the next position if it has money, and add it to the totals. */
    method MarkNext(uids: seq<Uid>, quote: Code -> Bar, profit: real, hold: real, ghost total: Totals)
      returns (profit': real, hold': real)
      requires uids != [] && Markable(positions) && Marking(positions, uids, quote, profit, hold, total)
      modifies this`positions
      ensures Markable(positions) && Marking(positions, uids[1..], quote, profit', hold', total)
    {
      var u := uids[0];
      MarkAllStep(positions, uids, quote);
      profit', hold' := profit, hold;
      if u in positions && positions[u].balance != 0.0 {
        ghost var rest := MarkAll(positions, uids, quote);
        var m := MarkOne(u, quote);
        ghost var next := MarkAll(positions, uids[1..], quote);
        Shift(profit, m.nowProfit, rest.profit, next.profit, total.profit);
        Shift(hold, m.holdBalance, rest.hold, next.hold, total.hold);
        profit', hold' := profit + m.nowProfit, hold + m.holdBalance;
      }
    }

    /** position_record on one position, which it updates in place. */
    method MarkOne(u: Uid, quote: Code -> Bar) returns (m: Mark)
      requires Markable(positions) && u in positions && positions[u].balance != 0.0
      modifies this`positions
      ensures m == PositionRecord(old(positions)[u], quote(old(positions)[u].code))
      ensures positions == old(positions)[u := m.q]
    {
      m := PositionRecord(positions[u], quote(positions[u].code));
      positions := positions[u := m.q];
    }

    /** The second loop of update_position_record: the signed value per instrument. */
    method CodeBalances(quote: Code -> Bar) returns (values: map<string, real>)
      ensures values == CodeValues(positions, order, quote)
    {
      var uids := order;
      values := map[];
      var i := 0;
      while i < |uids|
        invariant 0 <= i <= |uids|
        invariant values == CodeValues(positions, uids[..i], quote)
      {
        var u := uids[i];
        assert uids[..i + 1][..i] == uids[..i];
        if u in positions && positions[u].balance != 0.0 {
          values := Accrue(values, positions[u], quote(positions[u].code));
        }
        i := i + 1;
      }
      assert uids[..i] == uids;
    }

    /**
     * update_position_record: mark every position with money at its
     * instrument's bar, then record the floating profit, the equity and the
     * per-instrument values under the current instant.
     */
    method UpdatePositionRecord(quote: Code -> Bar, t: Clock)
      requires Valid()
      modifies this
      ensures State() == Valuation.UpdatePositionRecord(old(State()), quote, t)
      ensures Valid()
    {
      UpdateKeepsInv(c, State(), quote, t);
      Record(quote, t);
    }

    /** The body of update_position_record, on any state whose positions can be marked. */
    method Record(quote: Code -> Bar, t: Clock)
      requires Markable(positions)
      modifies this`positions, this`holdProfitHistory, this`balanceHistory, this`positionsBalanceHistory
      ensures State() == Valuation.UpdatePositionRecord(old(State()), quote, t)
    {
      ghost var b0 := State();
      ghost var m := MarkAll(positions, order, quote);
      var profit, hold := MarkPositions(quote);
      holdProfitHistory := holdProfitHistory[t.now := profit];
      var values := CodeBalances(quote);
      balanceHistory := balanceHistory[t.now := Equity(profit, hold, balance)];
      positionsBalanceHistory := positionsBalanceHistory[t.now := values[CASH_KEY := balance]];
      assert State() == Recorded(b0, m, values, t);
    }
  }
}

=== FILE: types.dfy ===
/**
 * The data model of the backtest trader: signal categories, operations,
 * positions, order records, statistics buckets, the configuration given
 * at construction, and `Book`, the whole mutable state of one trader.
 */
module Types {
  import opened Wrappers

  type Code = string      // tradable instrument
  type Uid = string       // open_uid: one id per opening decision
  type Key = string       // fill key of one partial open or close
  type CloseUid = string  // close-transaction id
  type Instant = int      // simulated (or wall-clock) timestamp
  type Day = int          // calendar day of an instant

  /** The terminal close-transaction id: only a close carrying it commits. */
  const CLEAR: CloseUid := "clear"
  /** Fixed notional of one signal-mode open. */
  const SIGNAL_NOTIONAL: real := 100000.0
  /** Friction factor applied to every sized open. */
  const FRICTION: real := 0.99
  /** Message of the synthetic operation `end` issues. */
  const EXIT_MSG: string := "退出"
  /** The key under which a balance snapshot stores the cash (it shares the dictionary with the codes). */
  const CASH_KEY: string := "Cash"

  /**
   * The eighteen signal categories of the statistics table, in the
   * table's order: "1buy", "2buy", "l2buy", "3buy", "l3buy",
   * "down_bi_bc_buy", "down_xd_bc_buy", "down_pz_bc_buy",
   * "down_qs_bc_buy" and their sell-point mirrors.
   */
  datatype Mmd =
    | FirstBuy | SecondBuy | L2Buy | ThirdBuy | L3Buy
    | DownBiBcBuy | DownXdBcBuy | DownPzBcBuy | DownQsBcBuy
    | FirstSell | SecondSell | L2Sell | ThirdSell | L3Sell
    | UpBiBcSell | UpXdBcSell | UpPzBcSell | UpQsBcSell
  {
    /** The key contains "buy": a long bias. */
    predicate IsBuy() {
      FirstBuy? || SecondBuy? || L2Buy? || ThirdBuy? || L3Buy?
      || DownBiBcBuy? || DownXdBcBuy? || DownPzBcBuy? || DownQsBcBuy?
    }

    /** The key contains "sell": a short bias (every key has exactly one of the two words). */
    predicate IsSell() {
      !IsBuy()
    }
  }

  datatype Action = Buy | Sell
  datatype Side = Long | Short
  datatype Mode = Signal | Trade | Real

  /** An instruction from the strategy. */
  datatype Operation = Operation(
    action: Action,
    mmd: Mmd,
    code: Code,
    posRate: real,     // requested fraction of the full size
    lossPrice: real,   // stop price; 0 means "use the bar's close"
    key: Key,
    openUid: Uid,
    closeUid: CloseUid,
    msg: string,
    info: string)

  /** The latest bar of an instrument. */
  datatype Bar = Bar(high: real, low: real, close: real)

  /** The current time: the instant and its calendar day. */
  datatype Clock = Clock(now: Instant, day: Day)

  datatype OpenRecord = OpenRecord(
    datetime: Instant, price: real, amount: real, msg: string,
    key: Key, openUid: Uid, posRate: real)

  datatype CloseRecord = CloseRecord(
    datetime: Instant, price: real, amount: real, msg: string,
    key: Key, closeUid: CloseUid, posRate: real)

  /** What a close transaction saw, stored under its close-transaction id. */
  datatype CloseSnapshot = CloseSnapshot(
    closeDatetime: Instant, profitRate: real, profit: real,
    maxProfitRate: real, maxLossRate: real, closeMsg: string)

  /** One simulated holding. */
  datatype Position = Position(
    code: Code,
    mmd: Mmd,
    openUid: Uid,
    side: Option<Side>,             // set on the first fill
    price: real,                    // price of the LAST fill (overwritten)
    amount: real,
    balance: real,                  // notional committed; 0 means dead
    lossPrice: real,
    nowPosRate: real,               // filled fraction of the full size
    openKeys: map<Key, real>,
    closeKeys: map<Key, real>,
    closeUidProfit: map<CloseUid, CloseSnapshot>,
    profit: real,
    profitRate: real,
    maxProfitRate: real,
    maxLossRate: real,
    openDate: Option<Day>,
    openDatetime: Option<Instant>,
    closeDatetime: Option<Instant>,
    openMsg: string,
    closeMsg: string,
    info: string,
    openRecords: seq<OpenRecord>,
    closeRecords: seq<CloseRecord>)

  /** What a cash routine reports for a fill: its price and amount. */
  datatype Fill = Fill(price: real, amount: real)

  /** The money value of a fill. */
  function Notional(f: Fill): real {
    f.price * f.amount
  }

  datatype OrderKind = OpenLong | OpenShort | CloseShort | CloseLong

  /** One entry of the per-code order log: the fill and the operation that caused it. */
  datatype Order = Order(
    datetime: Instant, kind: OrderKind, fill: Fill,
    info: string, openUid: Uid, closeUid: CloseUid)

  /** One bucket of the statistics table. */
  datatype Stats = Stats(winNum: nat, lossNum: nat, winBalance: real, lossBalance: real)

  /**
   * The constructor's settings, with the trader's two filters
   * (`allow_mmds`, `begin_run_dt`) and `blank`, the field values a
   * freshly constructed position starts with.
   */
  datatype Config = Config(
    mode: Mode,
    isStock: bool,     // same-day sale ban
    isFutures: bool,   // short legs enabled
    feeRate: real,
    maxPos: int,
    allowMmds: Option<set<Mmd>>,
    beginRun: Option<Instant>,
    blank: Position)

  /** The trader's whole mutable state. */
  datatype Book = Book(
    balance: real,                               // cash
    feeTotal: real,
    positions: map<Uid, Position>,
    order: seq<Uid>,                             // insertion order of `positions`
    history: map<Code, seq<Position>>,
    orders: map<Code, seq<Order>>,
    results: map<Mmd, Stats>,
    buffer: seq<Operation>,
    holdProfitHistory: map<Instant, real>,
    balanceHistory: map<Instant, real>,
    positionsBalanceHistory: map<Instant, map<string, real>>)  // per-code signed value, plus CASH_KEY

  /** The position defaults assumed of the POSITION constructor. */
  predicate EmptyPosition(p: Position) {
    && p.side == None && p.price == 0.0 && p.amount == 0.0 && p.balance == 0.0
    && p.nowPosRate == 0.0 && p.profit == 0.0
    && p.openKeys == map[] && p.closeKeys == map[] && p.closeUidProfit == map[]
    && p.openDate == None && p.openDatetime == None && p.closeDatetime == None
    && p.openRecords == [] && p.closeRecords == []
  }

  /** A position created for an open: the defaults plus code, category and id. */
  function NewPosition(c: Config, code: Code, mmd: Mmd, uid: Uid): Position {
    c.blank.(code := code, mmd := mmd, openUid := uid)
  }

  const ZERO_STATS: Stats := Stats(0, 0, 0.0, 0.0)

  /** The statistics table as constructed: every bucket zero. */
  const INITIAL_RESULTS: map<Mmd, Stats> := map[
    FirstBuy := ZERO_STATS, SecondBuy := ZERO_STATS, L2Buy := ZERO_STATS,
    ThirdBuy := ZERO_STATS, L3Buy := ZERO_STATS, DownBiBcBuy := ZERO_STATS,
    DownXdBcBuy := ZERO_STATS, DownPzBcBuy := ZERO_STATS, DownQsBcBuy := ZERO_STATS,
    FirstSell := ZERO_STATS, SecondSell := ZERO_STATS, L2Sell := ZERO_STATS,
    ThirdSell := ZERO_STATS, L3Sell := ZERO_STATS, UpBiBcSell := ZERO_STATS,
    UpXdBcSell := ZERO_STATS, UpPzBcSell := ZERO_STATS, UpQsBcSell := ZERO_STATS]

  /** The state right after construction: only "trade" mode starts with cash. */
  function InitialBook(c: Config, initBalance: real): Book {
    Book(if c.mode == Trade then initBalance else 0.0, 0.0, map[], [], map[], map[],
         INITIAL_RESULTS, [], map[], map[], map[])
  }

  function Min(a: real, b: real): real {
    if a <= b then a else b
  }

  function Abs(x: real): real {
    if x < 0.0 then -x else x
  }
}

=== FILE: valuation.dfy ===
/**
 * Marking positions to the market: position_record (the profit rate of
 * one position at its instrument's latest bar, and the best and worst
 * rates seen) and update_position_record (the totals the trader records
 * for each instant: floating profit, equity and the per-instrument
 * holding values).
 */
module Valuation {
  import opened Wrappers
  import opened Types
  import opened Sizing
  import opened Ledger

  function Max(a: real, b: real): real {
    if a >= b then a else b
  }

  /** The price move in the position's favour, from its entry price to `ref`. */
  function Favour(side: Side, price: real, ref: real): real {
    if side == Long then ref - price else price - ref
  }

  /**
   * The profit rate, in percent of the committed balance, after a
   * favourable move `move`: the move on the held part plus the realised
   * profit.
   */
  function MoveRate(p: Position, move: real): real
    requires p.price != 0.0 && p.balance != 0.0
  {
    Percent(move / p.price * Portion(p.balance, p.nowPosRate) + p.profit, p.balance)
  }

  /** The money a profit rate stands for on a balance. */
  function RateValue(rate: real, balance: real): real {
    rate / 100.0 * balance
  }

  /** `q` is `p` with at most its three profit-rate fields changed. */
  predicate SameBut(p: Position, q: Position) {
    q == p.(maxProfitRate := q.maxProfitRate, maxLossRate := q.maxLossRate, profitRate := q.profitRate)
  }

  /** The result of marking one position: the position, its floating profit and its held notional. */
  datatype Mark = Mark(q: Position, nowProfit: real, holdBalance: real)

  /** position_record: a position with no side yet only reports its held notional. */
  function PositionRecord(p: Position, bar: Bar): (m: Mark)
    requires p.balance != 0.0 && (p.side.Some? ==> p.price != 0.0)
    ensures SameBut(p, m.q)
    ensures m.q.maxProfitRate >= p.maxProfitRate && m.q.maxLossRate <= p.maxLossRate
    ensures m.holdBalance == Portion(p.balance, p.nowPosRate)
    ensures p.side.None? ==> m.q == p && m.nowProfit == 0.0
  {
    var hold := Portion(p.balance, p.nowPosRate);
    match p.side
    case None => Mark(p, 0.0, hold)
    case Some(side) =>
      var hi := MoveRate(p, Favour(side, p.price, if side == Long then bar.high else bar.low));
      var lo := MoveRate(p, Favour(side, p.price, if side == Long then bar.low else bar.high));
      var rate := MoveRate(p, Favour(side, p.price, bar.close));
      var q := p.(maxProfitRate := Max(p.maxProfitRate, hi), maxLossRate := Min(p.maxLossRate, lo), profitRate := rate);
      Mark(q, RateValue(rate, p.balance), hold)
  }

  lemma MulMono(a: real, b: real, k: real)
    requires a <= b && 0.0 <= k
    ensures a * k <= b * k
  {
  }

  lemma DivMono(a: real, b: real, k: real)
    requires a <= b && 0.0 < k
    ensures a / k <= b / k
  {
  }

  /** A larger favourable move never gives a smaller profit rate. */
  lemma MoveRateMonotone(p: Position, m1: real, m2: real)
    requires p.price > 0.0 && p.balance > 0.0 && p.nowPosRate >= 0.0 && m1 <= m2
    ensures MoveRate(p, m1) <= MoveRate(p, m2)
  {
    var h := Portion(p.balance, p.nowPosRate);
    DivMono(m1, m2, p.price);
    MulMono(m1 / p.price, m2 / p.price, h);
    DivMono(m1 / p.price * h + p.profit, m2 / p.price * h + p.profit, p.balance);
    MulMono((m1 / p.price * h + p.profit) / p.balance, (m2 / p.price * h + p.profit) / p.balance, 100.0);
  }

  /**
   * When the bar's close lies within its range, the recorded rate lies
   * between the worst and the best rate the position has seen.
   */
  lemma RateWithinExtremes(p: Position, bar: Bar)
    requires PosInv(p) && p.balance != 0.0 && p.side.Some?
    requires bar.low <= bar.close <= bar.high
    ensures var q := PositionRecord(p, bar).q;
      q.maxLossRate <= q.profitRate <= q.maxProfitRate
  {
    var side := p.side.value;
    var lowRef := if side == Long then bar.low else bar.high;
    var highRef := if side == Long then bar.high else bar.low;
    MoveRateMonotone(p, Favour(side, p.price, lowRef), Favour(side, p.price, bar.close));
    MoveRateMonotone(p, Favour(side, p.price, bar.close), Favour(side, p.price, highRef));
  }

  /** The floating profit of a position: the favourable move on its held part, plus what it has realised. */
  function Floating(p: Position, bar: Bar): real
    requires p.side.Some? ==> p.price != 0.0
  {
    match p.side
    case None => 0.0
    case Some(side) => Favour(side, p.price, bar.close) / p.price * Portion(p.balance, p.nowPosRate) + p.profit
  }

  /** The reported profit is the floating profit: the percentage round trip loses nothing. */
  lemma RecordedProfit(p: Position, bar: Bar)
    requires p.balance != 0.0 && (p.side.Some? ==> p.price != 0.0)
    ensures PositionRecord(p, bar).nowProfit == Floating(p, bar)
  {
    if p.side.Some? {
      var x := Floating(p, bar);
      assert Percent(x, p.balance) / 100.0 == x / p.balance;
      assert x / p.balance * p.balance == x;
    }
  }

  /** Marking keeps the fields the floating profit reads. */
  lemma FloatingUnmoved(p: Position, q: Position, bar: Bar)
    requires SameBut(p, q) && (p.side.Some? ==> p.price != 0.0)
    ensures Floating(q, bar) == Floating(p, bar)
  {
  }

  /** Every position can be marked: the invariant guarantees a price wherever there is a side. */
  predicate Markable(ps: map<Uid, Position>) {
    forall u :: u in ps ==> PosInv(ps[u])
  }

  /** Replacing a position by a re-marked copy keeps every position markable. */
  lemma MarkedMarkable(ps: map<Uid, Position>, u: Uid, q: Position)
    requires Markable(ps) && u in ps && SameBut(ps[u], q)
    ensures Markable(ps[u := q])
  {
  }

  /** The totals of the first loop of update_position_record, with the marked positions. */
  datatype Totals = Totals(ps: map<Uid, Position>, profit: real, hold: real)

  /** The first loop: mark every position with money, summing floating profit and held notional. */
  function MarkAll(ps: map<Uid, Position>, uids: seq<Uid>, quote: Code -> Bar): (r: Totals)
    requires Markable(ps)
    ensures r.ps.Keys == ps.Keys
    ensures forall u :: u in ps ==> SameBut(ps[u], r.ps[u])
    ensures forall u :: u in ps ==> r.ps[u].maxProfitRate >= ps[u].maxProfitRate && r.ps[u].maxLossRate <= ps[u].maxLossRate
    decreases |uids|
  {
    if uids == [] then Totals(ps, 0.0, 0.0)
    else
      var u := uids[0];
      if u !in ps || ps[u].balance == 0.0 then MarkAll(ps, uids[1..], quote)
      else
        var m := PositionRecord(ps[u], quote(ps[u].code));
        MarkedMarkable(ps, u, m.q);
        var rest := MarkAll(ps[u := m.q], uids[1..], quote);
        Totals(rest.ps, m.nowProfit + rest.profit, m.holdBalance + rest.hold)
  }

  /** One step of the first loop, for the loop that walks the keys. */
  lemma MarkAllStep(ps: map<Uid, Position>, uids: seq<Uid>, quote: Code -> Bar)
    requires Markable(ps) && uids != []
    ensures uids[0] in ps && ps[uids[0]].balance != 0.0 ==>
      var m := PositionRecord(ps[uids[0]], quote(ps[uids[0]].code));
      && Markable(ps[uids[0] := m.q])
      && var rest := MarkAll(ps[uids[0] := m.q], uids[1..], quote);
         MarkAll(ps, uids, quote) == Totals(rest.ps, m.nowProfit + rest.profit, m.holdBalance + rest.hold)
    ensures !(uids[0] in ps && ps[uids[0]].balance != 0.0) ==> MarkAll(ps, uids, quote) == MarkAll(ps, uids[1..], quote)
  {
    if uids[0] in ps && ps[uids[0]].balance != 0.0 {
      MarkedMarkable(ps, uids[0], PositionRecord(ps[uids[0]], quote(ps[uids[0]].code)).q);
    }
  }

  /** Moving one term from the rest of a sum to its running total. */
  lemma Shift(acc: real, x: real, rest: real, next: real, total: real)
    requires acc + rest == total && rest == x + next
    ensures (acc + x) + next == total
  {
  }

  /** Reference sum: the floating profit of the positions with money. */
  function SumFloating(ps: map<Uid, Position>, uids: seq<Uid>, quote: Code -> Bar): real
    requires Markable(ps)
    decreases |uids|
  {
    if uids == [] then 0.0
    else
      var u := uids[0];
      (if u in ps && ps[u].balance != 0.0 then Floating(ps[u], quote(ps[u].code)) else 0.0)
        + SumFloating(ps, uids[1..], quote)
  }

  /** Reference sum: the held notional of the positions with money. */
  function SumHeld(ps: map<Uid, Position>, uids: seq<Uid>): real
    decreases |uids|
  {
    if uids == [] then 0.0
    else
      var u := uids[0];
      (if u in ps && ps[u].balance != 0.0 then Portion(ps[u].balance, ps[u].nowPosRate) else 0.0)
        + SumHeld(ps, uids[1..])
  }

  /** The sums are the same over positions that differ only in their rates. */
  lemma {:induction false} SumsUnmoved(ps: map<Uid, Position>, qs: map<Uid, Position>, uids: seq<Uid>, quote: Code -> Bar)
    requires Markable(ps) && Markable(qs) && ps.Keys == qs.Keys
    requires forall u :: u in ps ==> SameBut(ps[u], qs[u])
    ensures SumFloating(qs, uids, quote) == SumFloating(ps, uids, quote)
    ensures SumHeld(qs, uids) == SumHeld(ps, uids)
    decreases |uids|
  {
    if uids != [] {
      var u := uids[0];
      if u in ps {
        FloatingUnmoved(ps[u], qs[u], quote(ps[u].code));
      }
      SumsUnmoved(ps, qs, uids[1..], quote);
    }
  }

  /** The first loop's totals are the floating profit and held notional of the positions with money. */
  lemma {:induction false} MarkAllSums(ps: map<Uid, Position>, uids: seq<Uid>, quote: Code -> Bar)
    requires Markable(ps)
    ensures MarkAll(ps, uids, quote).profit == SumFloating(ps, uids, quote)
    ensures MarkAll(ps, uids, quote).hold == SumHeld(ps, uids)
    decreases |uids|
  {
    if uids != [] {
      var u := uids[0];
      if u in ps && ps[u].balance != 0.0 {
        var p := ps[u];
        var m := PositionRecord(p, quote(p.code));
        var qs := ps[u := m.q];
        RecordedProfit(p, quote(p.code));
        MarkedMarkable(ps, u, m.q);
        MarkAllSums(qs, uids[1..], quote);
        SumsUnmoved(ps, qs, uids[1..], quote);
      } else {
        MarkAllSums(ps, uids[1..], quote);
      }
    }
  }

  /** A position's signed market value: long-biased categories count positive, short-biased ones negative. */
  function SignedValue(p: Position, bar: Bar): real {
    if p.mmd.IsBuy() then Notional(Fill(bar.close, p.amount)) else -Notional(Fill(bar.close, p.amount))
  }

  /** Add a position's signed value to its instrument's running total. */
  function Accrue(acc: map<string, real>, p: Position, bar: Bar): map<string, real> {
    acc[p.code := (if p.code in acc then acc[p.code] else 0.0) + SignedValue(p, bar)]
  }

  /** The second loop of update_position_record, over the first `|uids|` keys. */
  function CodeValues(ps: map<Uid, Position>, uids: seq<Uid>, quote: Code -> Bar): map<string, real>
    decreases |uids|
  {
    if uids == [] then map[]
    else
      var acc := CodeValues(ps, uids[..|uids| - 1], quote);
      var u := uids[|uids| - 1];
      if u in ps && ps[u].balance != 0.0 then Accrue(acc, ps[u], quote(ps[u].code)) else acc
  }

  /** Reference sum: the signed value of the positions with money of one instrument. */
  function CodeSum(ps: map<Uid, Position>, uids: seq<Uid>, code: Code, quote: Code -> Bar): real
    decreases |uids|
  {
    if uids == [] then 0.0
    else
      var u := uids[|uids| - 1];
      CodeSum(ps, uids[..|uids| - 1], code, quote)
        + (if u in ps && ps[u].balance != 0.0 && ps[u].code == code then SignedValue(ps[u], quote(code)) else 0.0)
  }

  /** Some position with money among `uids` belongs to `code`. */
  predicate Holds(ps: map<Uid, Position>, uids: seq<Uid>, code: Code) {
    exists i :: 0 <= i < |uids| && uids[i] in ps && ps[uids[i]].balance != 0.0 && ps[uids[i]].code == code
  }

  /**
   * The per-instrument table lists exactly the instruments with a position
   * with money, each with the signed value of all its positions.
   */
  lemma {:induction false} CodeValuesSum(ps: map<Uid, Position>, uids: seq<Uid>, quote: Code -> Bar, code: Code)
    ensures code in CodeValues(ps, uids, quote) <==> Holds(ps, uids, code)
    ensures code in CodeValues(ps, uids, quote) ==> CodeValues(ps, uids, quote)[code] == CodeSum(ps, uids, code, quote)
    ensures code !in CodeValues(ps, uids, quote) ==> CodeSum(ps, uids, code, quote) == 0.0
    decreases |uids|
  {
    if uids != [] {
      var init := uids[..|uids| - 1];
      var u := uids[|uids| - 1];
      CodeValuesSum(ps, init, quote, code);
      assert forall i :: 0 <= i < |init| ==> init[i] == uids[i];
      if Holds(ps, init, code) {
        var i :| 0 <= i < |init| && init[i] in ps && ps[init[i]].balance != 0.0 && ps[init[i]].code == code;
        assert uids[i] == init[i];
      }
      if Holds(ps, uids, code) && !(u in ps && ps[u].balance != 0.0 && ps[u].code == code) {
        var i :| 0 <= i < |uids| && uids[i] in ps && ps[uids[i]].balance != 0.0 && ps[uids[i]].code == code;
        assert i < |init| && init[i] == uids[i];
      }
    }
  }

  /** update_position_record: mark every position and record the totals under the current instant. */
  function UpdatePositionRecord(b: Book, quote: Code -> Bar, t: Clock): (r: Book)
    requires Markable(b.positions)
  {
    var m := MarkAll(b.positions, b.order, quote);
    Recorded(b, m, CodeValues(m.ps, b.order, quote), t)
  }

  /** The book with the marked positions and the three records of instant `t.now`. */
  function Recorded(b: Book, m: Totals, values: map<string, real>, t: Clock): Book {
    b.(positions := m.ps,
       holdProfitHistory := b.holdProfitHistory[t.now := m.profit],
       balanceHistory := b.balanceHistory[t.now := Equity(m.profit, m.hold, b.balance)],
       positionsBalanceHistory := b.positionsBalanceHistory[t.now := values[CASH_KEY := b.balance]])
  }

  /** The equity recorded for an instant: floating profit, held notional and cash. */
  function Equity(profit: real, hold: real, cash: real): real {
    profit + hold + cash
  }

  /**
   * What update_position_record records: the floating profit of the
   * positions with money, the equity (cash plus held notional plus floating
   * profit), and the cash next to the per-instrument values; marking only
   * moves the profit rates, the best rate never drops and the worst never
   * rises, and nothing else changes.
   */
  lemma UpdateRecords(b: Book, quote: Code -> Bar, t: Clock)
    requires Markable(b.positions)
    ensures var r := UpdatePositionRecord(b, quote, t);
      && r.holdProfitHistory[t.now] == SumFloating(b.positions, b.order, quote)
      && r.balanceHistory[t.now] == b.balance + SumHeld(b.positions, b.order) + SumFloating(b.positions, b.order, quote)
      && r.positionsBalanceHistory[t.now][CASH_KEY] == b.balance
      && (forall u :: u in b.positions ==>
            && u in r.positions && SameBut(b.positions[u], r.positions[u])
            && r.positions[u].maxProfitRate >= b.positions[u].maxProfitRate
            && r.positions[u].maxLossRate <= b.positions[u].maxLossRate)
      && r == b.(positions := r.positions, holdProfitHistory := r.holdProfitHistory,
                 balanceHistory := r.balanceHistory, positionsBalanceHistory := r.positionsBalanceHistory)
  {
    MarkAllSums(b.positions, b.order, quote);
  }

  /** update_position_record keeps the invariant of the trader's state. */
  lemma UpdateKeepsInv(c: Config, b: Book, quote: Code -> Bar, t: Clock)
    requires Inv(c, b)
    ensures Inv(c, UpdatePositionRecord(b, quote, t))
  {
    var r := UpdatePositionRecord(b, quote, t);
    forall u | u in r.positions ensures PosInv(r.positions[u]) {
      assert SameBut(b.positions[u], r.positions[u]);
    }
  }

  /** Each instrument's entry in the recorded table, other than the cash key, is the signed value of its positions. */
  lemma UpdateCodeValues(b: Book, quote: Code -> Bar, t: Clock, code: Code)
    requires Markable(b.positions) && code != CASH_KEY
    ensures var r := UpdatePositionRecord(b, quote, t);
      var table := r.positionsBalanceHistory[t.now];
      && (code in table <==> Holds(r.positions, b.order, code))
      && (code in table ==> table[code] == CodeSum(r.positions, b.order, code, quote))
  {
    var m := MarkAll(b.positions, b.order, quote);
    CodeValuesSum(m.ps, b.order, quote, code);
  }
}

=== FILE: wrappers.dfy ===
/** The optional value used for the trader's nullable fields (Python's None). */
module Wrappers {

  datatype Option<+T> = None | Some(value: T)
}
